=== FILE: README.md ===
# polidor retention cleaner, modelled in Dafny

polidor removes aged data directories from a storage tree laid out as
`base/company-id/device-name/device-number/yyyy/mm/dd`. The cleaner walks
the tree with `filepath.Walk`. For every visited path, the callback looks at
the directory holding that path. It does one of these things:

- it recognises the device the directory belongs to (`BuildDirectory`);
- it reads the date from the part after the device's name and number
  (`StripStart`, `ToEpoch`);
- it looks up the company's retention period (`FindRetentionPeriod`);
- it keeps the directory and skips its contents, or removes it (`Retain`,
  then `os.RemoveAll`);
- it ends the program through `Check` when a number or a date is malformed
  in a way it does not expect.

The model has the following modules.

- `GoStrings`, `GoStrconv`, `GoFilepath`, `Civil` and `TimeLayout` model the
  pieces of Go's standard library the core depends on:
  - `strings.Index`, `LastIndex`, `Contains` and `Split`;
  - `strconv.Atoi` over 64-bit `int`, and `strconv.Itoa`;
  - `filepath.Clean`, `Join` and `Dir` on Unix;
  - the proleptic Gregorian calendar in UTC;
  - `Time.Format` and `time.Parse` for the layout `2006/01/02`, including
    which kind of `ParseError` is reported and its message text. The text
    is quoted with plain double quotes, which is Go's quoting for printable
    ASCII apart from the backslashes Go puts before `"` and `\` (see
    "Left out").
- `Polidor` models `Directory`, the retention table and the functions of
  `polidor.go`. `Check` shows up as the `Fatal` outcome of `BuildDirectory`.
  Instants are integer nanoseconds since the Unix epoch.
- `Cleaner` models the `visit` callback as a pure function `Visit` of the
  storage root, the retention table, the current instant, whether the
  timeout has fired, and the visited path.
  - It walks a tree of files and folders the way `filepath.Walk` does.
    Each directory is listed before it is handed to the callback. An entry
    removed after its directory was listed is still handed to the callback,
    with the `Lstat` error.
  - It models `walker`'s handling of the final walk error.
  - The clock is a function from the number of the callback to an instant.
    The timeout is the number of the first callback that sees it fired.

The standard library is modelled as in current Go releases (Go 1.22):
`filepath.Walk` lists a directory before handing it to the callback,
`time.Parse` checks for trailing text before it checks the day of the month,
and its "extra text" message quotes the text. Older releases, including the
ones current when this code was written, called the callback on a directory
before listing it.

Main results:

- `BuildDirectory`, `ToPath` and `ToEpoch` invert one another on well-formed
  directories and four-digit years, when the device's `name/number/` does
  not occur again in the date part (`BuildDirectoryToPath`, `ToEpochToPath`,
  `ToPathToEpoch`; `ToEpochToPathAliased` shows the condition is needed).
- `Retain` reads only the device's name and number, never the base or the
  company id (`RetainIgnoresBaseAndCompany`).
- `Retain` keeps a directory exactly until the end of its retention period.
  The boundary instant keeps it.
- The cleaner's decisions are characterised exactly:
  - it removes exactly the expired date directories;
  - it skips exactly the retained ones;
  - it goes on or ends the program on exactly the stated errors.
- Every walk removes only directories that were expired date directories at
  the moment they were removed (`Walk`, `Walker`).

Three behaviours of the code are modelled as written, and lemmas show each
one.

- One might expect a malformed company id or device number to be skipped,
  and every date error below a date directory to mean "keep going". The code
  does otherwise. A company id or device number that is not an integer ends
  the program. So does a date part that has trailing text, or a month or day
  out of range: only a layout mismatch, whose message contains
  "cannot parse", is passed over.
- The round trip between `ToPath` and `ToEpoch` needs the device's
  `name/number/` not to occur again inside the date part. `StripStart` cuts
  after its last occurrence. For device `16` number `2016`, the directory for
  2016-08-11 cannot be read back (`ToEpochToPathAliased`).
- Suppose an expired date directory has a subdirectory (an hour directory,
  say, named in printable ASCII without the letter `c`) that holds entries. Visiting the subdirectory removes the date
  directory. Its entries were listed before that visit, so they are then
  handed to the callback. Their directory is `yyyy/mm/dd/hh`, `time.Parse`
  reports "extra text", and the program ends
  (`PurgeFromSubdirectoryExits`). This depends on the listing order of
  current Go. With the older order (callback first, then listing), the
  subdirectory's listing would fail after the removal. The callback would
  then see that failure, remove the missing date directory once more, and
  return nil, so nothing would end the program.

The path test table's comment dates instant 1470873600 to 11 Aug 2015. It is
11 Aug 2016, which is what the expected path says (`ExampleInstant`).

## Model

| member | source | states |
|---|---|---|
| GoStrings.Index | polidor.go:48 | The result is -1 exactly when `sub` occurs nowhere; otherwise `sub` occurs there and at no earlier position. |
| GoStrings.LastIndex | polidor.go:78 | The result is -1 exactly when `sub` occurs nowhere; otherwise `sub` occurs there and at no later position. |
| GoStrings.Split | polidor.go:56 | There is always at least one piece, no piece holds the separator, and joining the pieces with the separator gives back the string. |
| GoStrings.SplitJoin | polidor.go:56 | Splitting the join of separator-free pieces gives back exactly those pieces. |
| GoStrings.SplitCount | polidor.go:56-57 | Split yields one piece more than the string has separators, which is how the four-piece test counts slashes. |
| GoStrings.LastIndexBeforeRest | polidor.go:78 | An occurrence that does not recur in what follows its first character is the last occurrence. |
| GoStrconv.Atoi | polidor.go:62-65 | Atoi fails, with an error about its input, on anything but an optional sign and decimal digits; it succeeds only on such text, negative only after a minus sign. |
| GoStrconv.AtoiDenotes | polidor.go:62-65 | Atoi succeeds exactly on an optional `+` or `-` and decimal digits whose signed value fits in 64 bits, and then returns that value. |
| GoStrconv.Digits | polidor.go:116-118 | Itoa's digits are non-empty, denote the number, and have no leading zero. |
| GoStrconv.AtoiItoa | polidor.go:62-64 | Atoi reads back every 64-bit integer Itoa writes, so the numbers ToPath writes are the numbers BuildDirectory reads. |
| GoStrconv.ItoaAtoiLength | polidor.go:77-78 | Re-rendering a parsed number is never longer than the text it came from. |
| GoFilepath.CleanOfCleanPath | polidor.go:114-119 | Clean leaves a clean path unchanged. |
| GoFilepath.JoinCleanPaths | polidor.go:114-119 | Join of a clean path and clean relative paths is plain concatenation with separators, and the result is clean. |
| GoFilepath.JoinNameNumberSlash | polidor.go:77 | `filepath.Join(name, number, "/")` is `name/number`, except that an empty or `.` name drops out. |
| GoFilepath.DirOfChild | cleaner/cleaner.go:68 | The directory part of a clean path extended by one clean name is that path, and joining the two is plain concatenation. |
| Civil.CivilFromDays | polidor.go:119 | The civil date of a day number is a valid date with exactly that day number. |
| Civil.CivilFromDayNumber | polidor.go:119 | Every valid date is the civil date of its own day number. |
| Civil.DayNumberInjective | polidor.go:119 | Different valid dates have different day numbers. |
| Civil.DayStartOfCivil | polidor.go:119 | Midnight of an instant's UTC date is the instant with its time of day removed, at most a day earlier. |
| Civil.CivilOfDayStart | polidor.go:126-130 | The midnight of a valid date falls on a whole day and belongs to that date. |
| TimeLayout.ParseDate | polidor.go:126 | A successful parse gives a date with a four-digit year whose formatting is exactly the parsed text; every error names the whole text, and an "extra text" error names a suffix of it. |
| TimeLayout.ParseFormat | polidor.go:119-126 | Parsing a formatted date gives the date back. |
| TimeLayout.ParseFormatThenExtra | polidor.go:126 | A formatted date followed by more text fails with "extra text" naming that text. |
| TimeLayout.ParseErrorKinds | polidor.go:126 | Which error kind time.Parse reports, in terms of the text's shape: a layout mismatch, a month out of range, trailing text, or a day out of range, each as an if-and-only-if. |
| TimeLayout.MismatchTextSaysCannotParse | cleaner/cleaner.go:79 | The message of a layout mismatch contains "cannot parse". |
| TimeLayout.OtherTextQuotesValue | cleaner/cleaner.go:79 | The message of any other parse error contains "cannot parse" exactly when the parsed text does. |
| TimeLayout.ErrorText | cleaner/cleaner.go:79 | The message of time.Parse's error, which this line formats with `%s` and searches: "parsing time" and the quoted text, then either the layout mismatch (` as "2006/01/02": cannot parse` and the two quoted elements) or the reason: month out of range, day out of range, or extra text with the quoted rest. Its contract is in MismatchTextSaysCannotParse and OtherTextQuotesValue, which say when it contains "cannot parse". |
| TimeLayout.FormatDateShape | polidor.go:119 | A date with a four-digit year formats as four digits, slash, two digits, slash, two digits. |
| TimeLayout.FormatDate | polidor.go:119 | The date in the `2006/01/02` layout: the year zero-padded to four digits, the month and day to two. Its contract is in FormatDateShape (the shape for four-digit years) and ParseFormat (parsing it gives the date back). |
| Polidor.BuildDirectory | polidor.go:47-69 | The result is "unable to match storage" exactly when the storage does not occur in the path. It is "unable to find date" exactly when the text after its first occurrence has fewer than three separators. With four or more pieces after the storage, the result is fatal exactly when Atoi rejects the company id or the device number, and the error is the company id's when both fail. Otherwise the directory is built from the storage, the company id's value, the device name and the device number's value. |
| Polidor.BuildFromSplits | polidor.go:61-68 | With at least four pieces, the result is never an ordinary error. It is fatal exactly when pieces 1 or 3 do not parse, with piece 1's error first. Otherwise it is the directory of pieces 1 to 3, and it is safe for StripStart. |
| Polidor.BuildDirectoryOfLayout | polidor.go:47-69 | A path laid out as base, company id, device name and device number, followed by anything from a separator on, builds exactly that directory. |
| Polidor.BuildDirectoryToPath | polidor.go:113-120 | BuildDirectory recovers a well-formed directory from any path ToPath produces for an instant with a four-digit year. |
| Polidor.StripStart | polidor.go:75-80 | The result is a suffix of the path. When the strip path occurs, the result follows its last occurrence. When it does not, the slice starts at the strip path's length minus one, counted in characters. |
| Polidor.StripStartAfter | polidor.go:75-80 | When the strip path does not recur later, StripStart returns exactly what follows it. |
| Polidor.StripPathOfWellFormed | polidor.go:77 | The strip path of a directory with a clean name is `name/number/`. |
| Polidor.ToEpoch | polidor.go:124-131 | On success the result is a midnight whose date formats to the stripped text. It fails exactly when time.Parse fails on the stripped text, and with that same error. |
| Polidor.ToEpochSucceeds | polidor.go:124-131 | ToEpoch succeeds exactly when the stripped text is some date written in the layout. |
| Polidor.ToEpochToPath | polidor.go:122-131 | ToEpoch of ToPath(t) is midnight of t's day, when the strip path does not recur in the date part. |
| Polidor.ToPathToEpoch | polidor.go:110-120 | ToPath of the instant ToEpoch reads from a data path gives the path back. |
| Polidor.ToEpochToPathAliased | polidor.go:78 | Without that condition the round trip fails: device `16` number 2016 on 2016-08-11. |
| Polidor.ToEpochShortTail | polidor.go:124-129 | When the strip path occurs fewer than ten characters before the end, ToEpoch fails. |
| Polidor.ToPathLayout | polidor.go:113-120 | ToPath lays out base, company id, device name, device number and date with single separators, and the result is a clean path. |
| Polidor.ToPath | polidor.go:110-120 | Joins base, company id, device name, device number and the instant's UTC date in the `2006/01/02` layout, dropping the time of day. Its contract is in ToPathLayout (the layout, and a clean result), BuildDirectoryToPath and ToEpochToPath (the round trips). |
| Polidor.Wrap64 | polidor.go:88 | The wrapped value is congruent to the input modulo 2^64 and equal to it when it fits. |
| Polidor.RetentionDurationExact | polidor.go:88 | `time.Duration(period*24) * time.Hour` is exactly `period` days when the period is within 106751 days. |
| Polidor.RetentionDurationWraps | polidor.go:88 | One day more and the duration wraps to a negative value. |
| Polidor.RetentionDuration | polidor.go:88 | `period*24` hours in nanoseconds, with both products wrapping to 64 bits. Its contract is in RetentionDurationExact (exactly `period` days within 106751 days) and RetentionDurationWraps (negative one day later). |
| Polidor.Retain | polidor.go:84-97 | Retain succeeds exactly when ToEpoch does. It keeps the directory exactly when `now` is not after the date's midnight plus the period, so the boundary instant keeps it. It fails with ToEpoch's error. |
| Polidor.RetainOfDate | polidor.go:84-97 | For a path whose stripped part is a date, Retain keeps it until that date's midnight plus the period. |
| Polidor.RetainIgnoresBaseAndCompany | polidor.go:75-97 | Two directories with the same device name and number give the same Retain answer on every path, whatever their bases and company ids. |
| Polidor.FindRetentionPeriod | polidor.go:101-108 | The company's "retention" setting when it is present and non-zero, otherwise the default company's, with a missing entry reading 0. |
| Polidor.ZeroSettingFallsBack | polidor.go:101-108 | A company with a zero or missing setting gets exactly the default company's period, and an explicit zero reads like no entry. |
| Polidor.RetainExamples | polidor_test.go:39-54 | The retention test table's nine examples for 2015/08/11, with periods 0, 1 and 2 days. |
| Polidor.RetainExampleAfternoon | polidor_test.go:57-65 | The 2016/07/15 directory checked on the afternoon of 2016-08-15 with 10 days is not kept. |
| Polidor.BuildDirectoryExample | polidor_test.go:138-143 | A path below a date directory builds the device's directory. |
| Polidor.BuildDirectoryNoDateExample | polidor_test.go:144-149 | A path that stops at the device name fails with "unable to find date". |
| Polidor.BuildDirectoryNoMatchExample | polidor_test.go:150-155 | A path outside the storage fails with "unable to match storage". |
| Polidor.ToPathExample | polidor_test.go:97-104 | ToPath puts instant 1470873600 s in `/data/fb/1289/j1_readnews_com/2466/2016/08/11`, and ToEpoch reads that instant back. |
| Polidor.ExampleInstant | polidor_test.go:102 | Instant 1470873600 s is midnight of 2016-08-11. |
| Cleaner.Visit | cleaner/cleaner.go:55-93 | The timeout is reported exactly when it has fired. A removal is of the directory holding the path, and only when it is an expired date directory. SkipDir comes only for a retained one. An exit comes from a bad number or from a date error whose message lacks "cannot parse". |
| Cleaner.VisitOfDateDirectory | cleaner/cleaner.go:84-92 | In a date directory, the visit removes the directory exactly when its retention ended before now, and otherwise skips it. |
| Cleaner.VisitRemovesExactlyExpired | cleaner/cleaner.go:84-92 | A visit removes exactly when the directory holding the path is an expired date directory. |
| Cleaner.VisitSkipsExactlyRetained | cleaner/cleaner.go:84-89 | A visit skips exactly when the directory holding the path is a retained date directory. |
| Cleaner.VisitContinuesExactly | cleaner/cleaner.go:70-81 | A visit goes on doing nothing exactly when BuildDirectory returns an error, or ToEpoch fails with a layout mismatch or about text containing "cannot parse". |
| Cleaner.VisitExitsExactly | cleaner/cleaner.go:70-82 | A visit ends the program exactly when a number is malformed, or ToEpoch fails in any other way. |
| Cleaner.VisitCases | cleaner/cleaner.go:70-92 | The visit's answer for each result of BuildDirectory and Retain. |
| Cleaner.SaysCannotParseExactly | cleaner/cleaner.go:79-82 | The "cannot parse" test passes over exactly layout mismatches and errors about text that itself contains the words. |
| Cleaner.SaysCannotParse | cleaner/cleaner.go:79 | Whether the error's message contains "cannot parse". Its contract is in SaysCannotParseExactly, which says which errors those are. |
| Cleaner.RetainFailsLikeToEpoch | polidor.go:87-91 | On a built directory Retain fails exactly when ToEpoch does, with the same error. |
| Cleaner.RetainedDate | cleaner/cleaner.go:75-76 | When Retain succeeds, the directory is a date directory, and Retain keeps it exactly until its retention ends. |
| Cleaner.RetentionEndInDays | polidor.go:88 | A date directory's retention ends the period's number of days after its midnight, for periods within range. |
| Cleaner.Callback | cleaner/cleaner.go:55-93 | Each call appends its path to the visits. It removes at most the directory holding the path, and only an expired one before the timeout. It reports the timeout exactly from the deadline on. It keeps the record sound. |
| Cleaner.SoundAfterVisit | cleaner/cleaner.go:90 | Removing the directory holding the visited path, while it is expired and before the timeout, keeps every recorded removal justified. |
| Cleaner.WalkNode | cleaner/cleaner.go:95 | Walking a node extends the record and keeps it sound. The timeout is reported exactly when a call past the deadline was made. An exit is the last visit's exit. |
| Cleaner.WalkEntries | cleaner/cleaner.go:95 | The loop over a directory's entries has the same guarantees. |
| Cleaner.Walk | cleaner/cleaner.go:95 | A walk never ends with SkipDir. Every removal in it was of an expired date directory before the timeout. The timeout is reported exactly when the deadline was passed. An exit is the last visit's exit. |
| Cleaner.Walker | cleaner/cleaner.go:95-103 | The timeout is reported exactly when the deadline was passed. The program stops only where a visit stopped it. Every removal was justified. |
| Cleaner.CallbackRemoves | cleaner/cleaner.go:90-92 | The visit of an entry of an expired date directory removes that directory and returns nil. |
| Cleaner.PurgeOfDateDirectory | cleaner/cleaner.go:84-92 | In an expired date directory of files, the first file's visit removes the directory. Every other listed file is then visited, in order, and the loop ends without error. |
| Cleaner.GoneEntriesRevisited | cleaner/cleaner.go:56-58 | Every listed file of a removed date directory is still handed to the callback, in order and nothing else. The callback ignores the missing files, and the loop ends without error. |
| Cleaner.AllListed | cleaner/cleaner.go:56-58 | When no entry of a directory had been removed at its listing, the listed paths are exactly the entries' paths, in order. |
| Cleaner.KeptDateDirectoryLeft | cleaner/cleaner.go:84-89 | In a retained date directory, the first file's visit answers SkipDir: nothing is removed and the other entries are never visited. |
| Cleaner.SubdirectoryVisitPurges | cleaner/cleaner.go:68-92 | Visiting a subdirectory of an expired date directory removes the date directory. |
| Cleaner.VisitBelowSubdirectory | cleaner/cleaner.go:68-82 | Visiting an entry two levels below a date directory, through a subdirectory named in printable ASCII without `c`, fails on "extra text" after the date and ends the program. |
| Cleaner.PurgeFromSubdirectoryExits | cleaner/cleaner.go:68-92 | Walking a non-empty subdirectory of an expired date directory, named in printable ASCII without `c`, ends the program with that "extra text" error. |

## Left out

- Reading `retentions.yml` and `main`: the retention table is a parameter.
- The synthetic data generator: it only produces paths in ToPath's layout.
- `fmt.Printf` progress output and the "timed out" banner: output only.
- `time.Now` and the `time.After` timeout channel: they are a clock function indexed by callback number, plus a deadline callback number.
- `os.RemoveAll` is taken to succeed. The `Check` after it is not modelled.
- Process exit: `log.Fatalf` in `Check` is an outcome (`Fatal`, `Exit`, `Stopped`); nothing after it runs.
- `filepath.Walk` cases not modelled:
  - A directory that exists but cannot be read.
  - The order of directory entries. The walk takes each directory's entries in the order the tree gives; Go sorts them by name. The proofs hold for every order.
- `walker` walks the constant `storageDirectory` rather than its `storage` argument. The two are equal in the program, so one root serves as both.
- Cleaner.SaysCannotParse: messages are built with plain double quotes. Go's `quote` also escapes quotes, backslashes and control characters in the quoted text, and writes every byte of a non-ASCII character as `\x..`. Those hex digits can spell "cannot parse" where the text does not: Go quotes `¬annot parse` as `\xc2\xacannot parse`. On printable ASCII text the two quotings agree on the test.
- TimeLayout.OtherTextQuotesValue: the if-and-only-if holds for the plain quoting. Under Go's quoting it holds for printable ASCII values only; a value with a control or non-ASCII character can make the message say "cannot parse" when the value does not.
- Cleaner.SaysCannotParseExactly: exact for the plain quoting. Go also passes over an error whose quoted text spells "cannot parse" through `\x..` escapes, which needs a control or non-ASCII character in the date part.
- Cleaner.VisitContinuesExactly: exact for the plain quoting. With a control or non-ASCII character in the date part, Go can also go on where the message's escapes spell "cannot parse".
- Cleaner.VisitExitsExactly: exact for the plain quoting. For the same date parts, Go goes on where the model ends the program.
- Polidor.Retain: the keep-or-remove condition is stated only for retention periods within 106751 days. The 64-bit wrap-around beyond that is modelled, but only Polidor.RetentionDurationWraps states its effect.
- Polidor.StripStart: strings are sequences of characters, and Go's lengths and indices count bytes. When the strip path does not occur, Go slices from its length in bytes minus one. The model slices from its length in characters minus one. The two agree when the strip path and the start of the path are ASCII.
- Polidor.StripStart: when the strip path does not occur and is more than one longer than the path, Go's slice panics. The model requires that this does not happen (`StripInRange`). BuildDirectory guarantees it for every directory it builds, so the cleaner never meets that case.
- Polidor.ToPath: years outside 0..9999 are formatted as Go does, but the round-trip lemmas cover only four-digit years.

=== FILE: civil.dfy ===
/** The proleptic Gregorian calendar in UTC, as Go's `time` package uses it:
    civil dates, day numbers counted from 1970-01-01, and instants counted
    in nanoseconds from the Unix epoch. */
module Civil {

  datatype Date = Date(year: int, month: int, day: int)

  const NanosPerSecond: int := 1_000_000_000
  const SecondsPerDay: int := 86_400
  const NanosPerDay: int := 86_400_000_000_000

  predicate IsLeap(y: int) {
    y % 4 == 0 && (y % 100 != 0 || y % 400 == 0)
  }

  function DaysInYear(y: int): int {
    if IsLeap(y) then 366 else 365
  }

  /** The number of days of month `m` in year `y` (Go's daysIn). */
  function DaysIn(m: int, y: int): int
    requires 1 <= m <= 12
  {
    if m == 2 then (if IsLeap(y) then 29 else 28)
    else if m == 4 || m == 6 || m == 9 || m == 11 then 30
    else 31
  }

  predicate ValidDate(d: Date) {
    1 <= d.month <= 12 && 1 <= d.day <= DaysIn(d.month, d.year)
  }

  /** A signed count of leap years before year `y`. */
  function Leaps(y: int): int {
    (y + 3) / 4 - (y + 99) / 100 + (y + 399) / 400
  }

  /** Days from 1970-01-01 to the first of January of year `y`. */
  function DaysBeforeYear(y: int): int {
    365 * (y - 1970) + Leaps(y) - Leaps(1970)
  }

  /** Days in a common year before the first of month `m` (Go's daysBefore). */
  function CumulativeDays(m: int): int
    requires 1 <= m <= 12
  {
    if m == 1 then 0 else if m == 2 then 31 else if m == 3 then 59
    else if m == 4 then 90 else if m == 5 then 120 else if m == 6 then 151
    else if m == 7 then 181 else if m == 8 then 212 else if m == 9 then 243
    else if m == 10 then 273 else if m == 11 then 304 else 334
  }

  /** Days from the first of January to the first of month `m`. */
  function DaysBeforeMonth(m: int, y: int): int
    requires 1 <= m <= 12
  {
    CumulativeDays(m) + (if m > 2 && IsLeap(y) then 1 else 0)
  }

  /** The day number of a date: days since 1970-01-01, negative before it. */
  function DayNumber(d: Date): int
    requires 1 <= d.month <= 12
  {
    DaysBeforeYear(d.year) + DaysBeforeMonth(d.month, d.year) + d.day - 1
  }

  lemma NextYear(y: int)
    ensures DaysBeforeYear(y + 1) == DaysBeforeYear(y) + DaysInYear(y)
  {
    LeapsStep(y);
  }

  /** Year `y` adds one to the count of leap years exactly when it is one. */
  lemma LeapsStep(y: int)
    ensures Leaps(y + 1) == Leaps(y) + (if IsLeap(y) then 1 else 0)
  {
    CountStep4(y);
    CountStep100(y);
    CountStep400(y);
    Divides(y);
  }

  /** A multiple of 400 is a multiple of 100, which is a multiple of 4. */
  lemma Divides(y: int)
    ensures y % 400 == 0 ==> y % 100 == 0
    ensures y % 100 == 0 ==> y % 4 == 0
  {
    if y % 400 == 0 {
      Multiple400(y / 400, y);
    }
    if y % 100 == 0 {
      Multiple100(y / 100, y);
    }
  }

  lemma Multiple400(k: int, y: int)
    requires y == 400 * k
    ensures y % 100 == 0
  {
    assert y == 100 * (4 * k);
  }

  lemma Multiple100(k: int, y: int)
    requires y == 100 * k
    ensures y % 4 == 0
  {
    assert y == 4 * (25 * k);
  }

  lemma CountStep4(y: int)
    ensures (y + 4) / 4 == (y + 3) / 4 + (if y % 4 == 0 then 1 else 0)
  {
  }

  lemma CountStep100(y: int)
    ensures (y + 100) / 100 == (y + 99) / 100 + (if y % 100 == 0 then 1 else 0)
  {
  }

  lemma CountStep400(y: int)
    ensures (y + 400) / 400 == (y + 399) / 400 + (if y % 400 == 0 then 1 else 0)
  {
  }

  lemma NextMonth(m: int, y: int)
    requires 1 <= m <= 12
    ensures m < 12 ==> DaysBeforeMonth(m + 1, y) == DaysBeforeMonth(m, y) + DaysIn(m, y)
    ensures m == 12 ==> DaysBeforeMonth(m, y) + DaysIn(m, y) == DaysInYear(y)
  {
  }

  /** The years on either side of `y` begin at least a year's worth of days
      earlier and later. */
  lemma YearsAround(y: int)
    ensures DaysBeforeYear(y - 1) + 365 <= DaysBeforeYear(y)
    ensures DaysBeforeYear(y) + 365 <= DaysBeforeYear(y + 1)
  {
    NextYear(y);
    NextYear(y - 1);
  }

  /** Years only move forward: each one adds at least 365 days. */
  lemma {:induction false} YearsIncrease(a: int, b: int)
    requires a <= b
    ensures DaysBeforeYear(a) + 365 * (b - a) <= DaysBeforeYear(b)
    decreases b - a
  {
    if a < b {
      YearsIncrease(a, b - 1);
      NextYear(b - 1);
    }
  }

  /** The year containing day number `n`, searched from the guess `y`. */
  function YearSearch(n: int, y: int): (r: int)
    ensures DaysBeforeYear(r) <= n < DaysBeforeYear(r + 1)
  {
    if n < DaysBeforeYear(y) then YearSearchDown(n, y) else YearSearchUp(n, y)
  }

  /** The search downwards from a year that begins after day `n`. */
  function YearSearchDown(n: int, y: int): (r: int)
    requires n < DaysBeforeYear(y)
    ensures DaysBeforeYear(r) <= n < DaysBeforeYear(r + 1)
    decreases DaysBeforeYear(y) - n
  {
    YearsAround(y);
    if DaysBeforeYear(y - 1) <= n then y - 1 else YearSearchDown(n, y - 1)
  }

  /** The search upwards from a year that begins on or before day `n`. */
  function YearSearchUp(n: int, y: int): (r: int)
    requires DaysBeforeYear(y) <= n
    ensures DaysBeforeYear(r) <= n < DaysBeforeYear(r + 1)
    decreases n - DaysBeforeYear(y)
  {
    YearsAround(y);
    if n < DaysBeforeYear(y + 1) then y else YearSearchUp(n, y + 1)
  }

  /** The month containing day `doy` (counted from 0) of year `y`, searched
      upwards from month `m`. */
  function MonthSearch(doy: int, y: int, m: int): (r: int)
    requires 1 <= m <= 12 && DaysBeforeMonth(m, y) <= doy < DaysInYear(y)
    ensures m <= r <= 12
    ensures DaysBeforeMonth(r, y) <= doy < DaysBeforeMonth(r, y) + DaysIn(r, y)
    decreases 12 - m
  {
    NextMonth(m, y);
    if doy < DaysBeforeMonth(m, y) + DaysIn(m, y) then m else MonthSearch(doy, y, m + 1)
  }

  /** The civil date of day number `n` (Go's absDate). */
  function CivilFromDays(n: int): (d: Date)
    ensures ValidDate(d)
    ensures DayNumber(d) == n
  {
    var y := YearSearch(n, 1970 + n / 365);
    DayOfYear(n, y);
    DateInYear(y, n - DaysBeforeYear(y))
  }

  /** A day number within year `y` is a day of that year. */
  lemma DayOfYear(n: int, y: int)
    requires DaysBeforeYear(y) <= n < DaysBeforeYear(y + 1)
    ensures 0 <= n - DaysBeforeYear(y) < DaysInYear(y)
  {
    NextYear(y);
  }

  /** The date of day `doy` (counted from 0) of year `y`. */
  function DateInYear(y: int, doy: int): (d: Date)
    requires 0 <= doy < DaysInYear(y)
    ensures ValidDate(d) && d.year == y
    ensures DaysBeforeMonth(d.month, y) + d.day - 1 == doy
  {
    var m := MonthSearch(doy, y, 1);
    Date(y, m, doy - DaysBeforeMonth(m, y) + 1)
  }

  /** A valid date's day number lies within its year. */
  lemma DayNumberInYear(d: Date, n: int)
    requires ValidDate(d) && n == DayNumber(d)
    ensures DaysBeforeYear(d.year) <= n < DaysBeforeYear(d.year + 1)
  {
    MonthEnd(d.month, d.year);
    NextYear(d.year);
  }

  /** Different valid dates have different day numbers. */
  lemma DayNumberInjective(r: Date, d: Date)
    requires ValidDate(r) && ValidDate(d) && DayNumber(r) == DayNumber(d)
    ensures r == d
  {
    SameYear(r, d);
    SameYearSameDate(r, d);
  }

  /** Valid dates with the same day number lie in the same year. */
  lemma SameYear(r: Date, d: Date)
    requires ValidDate(r) && ValidDate(d) && DayNumber(r) == DayNumber(d)
    ensures r.year == d.year
  {
    if r.year < d.year {
      EarlierYear(r, d);
    } else if d.year < r.year {
      EarlierYear(d, r);
    }
  }

  /** A valid date in an earlier year has a smaller day number. */
  lemma EarlierYear(r: Date, d: Date)
    requires ValidDate(r) && ValidDate(d) && r.year < d.year
    ensures DayNumber(r) < DayNumber(d)
  {
    DayNumberInYear(r, DayNumber(r));
    DayNumberInYear(d, DayNumber(d));
    YearsIncrease(r.year + 1, d.year);
  }

  /** Within one year, different valid dates fall on different days. */
  lemma SameYearSameDate(r: Date, d: Date)
    requires ValidDate(r) && ValidDate(d) && r.year == d.year && DayNumber(r) == DayNumber(d)
    ensures r == d
  {
    assert DaysBeforeMonth(r.month, r.year) + r.day == DaysBeforeMonth(d.month, d.year) + d.day;
    if r.month < d.month {
      MonthsDisjoint(r.month, d.month, d.year);
    } else if d.month < r.month {
      MonthsDisjoint(d.month, r.month, d.year);
    }
  }

  /** Every valid date is the civil date of its own day number, so day
      numbers and valid dates correspond one to one. */
  lemma CivilFromDayNumber(d: Date)
    requires ValidDate(d)
    ensures CivilFromDays(DayNumber(d)) == d
  {
    DayNumberInjective(CivilFromDays(DayNumber(d)), d);
  }

  /** A month ends no later than its year. */
  lemma MonthEnd(m: int, y: int)
    requires 1 <= m <= 12
    ensures DaysBeforeMonth(m, y) + DaysIn(m, y) <= DaysInYear(y)
  {
  }

  /** Different months of a year cover disjoint day ranges. */
  lemma MonthsDisjoint(a: int, b: int, y: int)
    requires 1 <= a < b <= 12
    ensures DaysBeforeMonth(a, y) + DaysIn(a, y) <= DaysBeforeMonth(b, y)
  {
  }

  /** The UTC civil date of an instant given in nanoseconds. */
  function CivilOf(t: int): Date {
    CivilFromDays(t / NanosPerDay)
  }

  /** Midnight UTC at the start of a date, in nanoseconds. */
  function DayStart(d: Date): int
    requires 1 <= d.month <= 12
  {
    DayNumber(d) * NanosPerDay
  }

  /** Midnight of an instant's own date is the instant with its time of day
      removed. */
  lemma DayStartOfCivil(t: int)
    ensures DayStart(CivilOf(t)) <= t < DayStart(CivilOf(t)) + NanosPerDay
    ensures DayStart(CivilOf(t)) == t - t % NanosPerDay
  {
  }

  /** A valid date is the civil date of its own midnight, which falls on a
      day boundary. */
  lemma CivilOfDayStart(d: Date)
    requires ValidDate(d)
    ensures DayStart(d) % NanosPerDay == 0
    ensures CivilOf(DayStart(d)) == d
  {
    assert DayStart(d) / NanosPerDay == DayNumber(d);
    CivilFromDayNumber(d);
  }
}

=== FILE: cleaner.dfy ===
/** The cleaner: the callback it hands to filepath.Walk, which decides for
    each visited path whether the date directory holding it is kept or
    removed, and the walk itself over a tree of files and directories under
    the storage root, with removals taking effect while the walk goes on. */
module Cleaner {
  import opened Wrappers
  import opened GoStrings
  import opened GoStrconv
  import opened GoFilepath
  import opened Civil
  import opened TimeLayout
  import opened Polidor

  /** Why Check ends the program during a visit: a company id or device
      number that is not an integer, or a Retain error whose text does not
      say "cannot parse". */
  datatype FatalCause =
    | BadNumber(numError: NumError)
    | BadDate(parseError: ParseError)

  /** What one call of the callback does: report the timeout, go on, skip
      the rest of a directory, remove a directory and go on, or end the
      program. */
  datatype VisitOutcome =
    | TimedOut
    | Continue
    | SkipDir
    | RemoveThenContinue(dir: string)
    | Exit(cause: FatalCause)

  /** Whether the text of a Retain error contains "cannot parse"; the
      cleaner takes such a directory for one that is not a date directory. */
  predicate SaysCannotParse(e: ParseError) {
    Contains(ErrorText(e), CannotParseText)
  }

  /** `dir` is a data directory of some device under `storage`, and the part
      after the device's name and number spells `date`. */
  ghost predicate DateDirectory(storage: string, dir: string, date: Date) {
    var b := BuildDirectory(storage, dir);
    b.Built? && LayoutDate(date) && StripStart(b.dir, dir) == FormatDate(date)
  }

  /** The instant at which the retention of a date directory ends: its
      midnight plus its company's retention period, as time.Duration
      arithmetic computes it. */
  function RetentionEnd(table: RetentionTable, d: Directory, date: Date): int
    requires 1 <= date.month <= 12
  {
    DayStart(date) + RetentionDuration(FindRetentionPeriod(table, d.companyID))
  }

  /** `dir` is a date directory whose retention ended before `now`. */
  ghost predicate Expired(storage: string, table: RetentionTable, now: int, dir: string) {
    exists date :: DateDirectory(storage, dir, date)
      && RetentionEnd(table, BuildDirectory(storage, dir).dir, date) < now
  }

  /** `dir` is a date directory whose retention has not ended at `now`. */
  ghost predicate Retained(storage: string, table: RetentionTable, now: int, dir: string) {
    exists date :: DateDirectory(storage, dir, date)
      && now <= RetentionEnd(table, BuildDirectory(storage, dir).dir, date)
  }

  /** A date directory's retention ends `period` days after its midnight
      when the period is within the exact range of time.Duration. */
  lemma RetentionEndInDays(table: RetentionTable, d: Directory, date: Date)
    requires 1 <= date.month <= 12
    requires -MaxPeriodDays <= FindRetentionPeriod(table, d.companyID) <= MaxPeriodDays
    ensures RetentionEnd(table, d, date) == DayStart(date) + FindRetentionPeriod(table, d.companyID) * NanosPerDay
  {
    RetentionDurationExact(FindRetentionPeriod(table, d.companyID));
  }

  /** The callback `visit` of walker, at instant `now`, with `timedOut`
      telling whether the timeout has fired. The decision is about the
      directory holding the visited path. */
  function Visit(storage: string, table: RetentionTable, now: int, timedOut: bool, path: string): (r: VisitOutcome)
    ensures r.TimedOut? <==> timedOut
    ensures r.RemoveThenContinue? ==> r.dir == Dir(path) && Expired(storage, table, now, r.dir)
    ensures r.SkipDir? ==> Retained(storage, table, now, Dir(path))
    ensures r.Exit? && r.cause.BadNumber? ==> BuildDirectory(storage, Dir(path)).Fatal?
    ensures r.Exit? && r.cause.BadDate? ==> !SaysCannotParse(r.cause.parseError)
  {
    if timedOut then TimedOut
    else
      var dir := Dir(path);
      match BuildDirectory(storage, dir) {
        case Failed(_) => Continue
        case Fatal(e) => Exit(BadNumber(e))
        case Built(d) =>
          match Retain(d, now, dir, FindRetentionPeriod(table, d.companyID)) {
            case Failure(e) => if SaysCannotParse(e) then Continue else Exit(BadDate(e))
            case Success(keep) =>
              RetainedDate(storage, table, now, dir);
              if keep then SkipDir else RemoveThenContinue(dir)
          }
      }
  }

  /** When Retain succeeds on a built directory, the date it read names the
      directory and Retain keeps it exactly until that date's retention
      ends. */
  lemma RetainedDate(storage: string, table: RetentionTable, now: int, dir: string)
    requires BuildDirectory(storage, dir).Built?
    requires var d := BuildDirectory(storage, dir).dir;
      Retain(d, now, dir, FindRetentionPeriod(table, d.companyID)).Success?
    ensures var d := BuildDirectory(storage, dir).dir;
      var date := CivilOf(ToEpoch(d, dir).value);
      && DateDirectory(storage, dir, date)
      && (Retain(d, now, dir, FindRetentionPeriod(table, d.companyID)).value <==> now <= RetentionEnd(table, d, date))
  {
    var d := BuildDirectory(storage, dir).dir;
    DayStartOfCivil(ToEpoch(d, dir).value);
  }

  /** The decision for a date directory: remove it exactly when its
      retention has ended, keep it (skipping its contents) otherwise. */
  lemma VisitOfDateDirectory(storage: string, table: RetentionTable, now: int, path: string, date: Date)
    requires DateDirectory(storage, Dir(path), date)
    ensures var d := BuildDirectory(storage, Dir(path)).dir;
      Visit(storage, table, now, false, path)
        == if RetentionEnd(table, d, date) < now then RemoveThenContinue(Dir(path)) else SkipDir
  {
    var d := BuildDirectory(storage, Dir(path)).dir;
    ParseFormat(date);
    assert ToEpoch(d, Dir(path)) == Success(DayStart(date));
  }

  /** A visit removes a directory exactly when the directory holding the
      visited path is an expired date directory. */
  lemma VisitRemovesExactlyExpired(storage: string, table: RetentionTable, now: int, path: string)
    ensures Visit(storage, table, now, false, path).RemoveThenContinue? <==> Expired(storage, table, now, Dir(path))
  {
    if Expired(storage, table, now, Dir(path)) {
      var date :| DateDirectory(storage, Dir(path), date)
        && RetentionEnd(table, BuildDirectory(storage, Dir(path)).dir, date) < now;
      VisitOfDateDirectory(storage, table, now, path, date);
    }
  }

  /** A visit skips a directory exactly when the directory holding the
      visited path is a date directory still inside its retention period. */
  lemma VisitSkipsExactlyRetained(storage: string, table: RetentionTable, now: int, path: string)
    ensures Visit(storage, table, now, false, path).SkipDir? <==> Retained(storage, table, now, Dir(path))
  {
    if Retained(storage, table, now, Dir(path)) {
      var date :| DateDirectory(storage, Dir(path), date)
        && now <= RetentionEnd(table, BuildDirectory(storage, Dir(path)).dir, date);
      VisitOfDateDirectory(storage, table, now, path, date);
    }
  }

  /** A layout mismatch, or an error about a text that itself contains
      "cannot parse". */
  predicate PassedOver(e: ParseError) {
    e.kind.CannotParse? || Contains(e.value, CannotParseText)
  }

  /** The Retain errors the cleaner passes over: layout mismatches, and
      errors about a text that itself contains "cannot parse". Month and day
      out of range and trailing text are otherwise fatal. */
  lemma SaysCannotParseExactly(e: ParseError)
    requires e.kind.ExtraText? ==> HasSuffix(e.value, e.kind.rest)
    ensures SaysCannotParse(e) <==> PassedOver(e)
  {
    if e.kind.CannotParse? {
      MismatchTextSaysCannotParse(e);
    } else {
      OtherTextQuotesValue(e);
    }
  }

  /** The visit's answer by what BuildDirectory and Retain report. */
  lemma VisitCases(storage: string, table: RetentionTable, now: int, path: string)
    ensures var b := BuildDirectory(storage, Dir(path));
      var v := Visit(storage, table, now, false, path);
      && (b.Failed? ==> v == Continue)
      && (b.Fatal? ==> v == Exit(BadNumber(b.numError)))
      && (b.Built? ==>
            var rt := Retain(b.dir, now, Dir(path), FindRetentionPeriod(table, b.dir.companyID));
            && (rt.Success? ==> v.SkipDir? || v.RemoveThenContinue?)
            && (rt.Failure? ==> v == if SaysCannotParse(rt.error) then Continue else Exit(BadDate(rt.error))))
  {
    var b := BuildDirectory(storage, Dir(path));
    if b.Built? {
      VisitOfBuilt(storage, table, now, path, b.dir);
    }
  }

  lemma VisitOfBuilt(storage: string, table: RetentionTable, now: int, path: string, d: Directory)
    requires BuildDirectory(storage, Dir(path)) == Built(d)
    ensures var v := Visit(storage, table, now, false, path);
      var rt := Retain(d, now, Dir(path), FindRetentionPeriod(table, d.companyID));
      && (rt.Success? ==> v.SkipDir? || v.RemoveThenContinue?)
      && (rt.Failure? ==> v == if SaysCannotParse(rt.error) then Continue else Exit(BadDate(rt.error)))
  {
  }

  /** On a built directory, Retain fails exactly when ToEpoch does, with the
      same error, and the cleaner passes over that error exactly when it is
      a layout mismatch or about a text containing "cannot parse". */
  lemma RetainFailsLikeToEpoch(storage: string, table: RetentionTable, now: int, dir: string)
    ensures var b := BuildDirectory(storage, dir);
      b.Built? ==>
        var rt := Retain(b.dir, now, dir, FindRetentionPeriod(table, b.dir.companyID));
        var te := ToEpoch(b.dir, dir);
        && (rt.Failure? <==> te.Failure?)
        && (te.Failure? ==> rt.error == te.error && (SaysCannotParse(te.error) <==> PassedOver(te.error)))
  {
    var b := BuildDirectory(storage, dir);
    if b.Built? {
      var te := ToEpoch(b.dir, dir);
      if te.Failure? {
        SaysCannotParseExactly(te.error);
      }
    }
  }

  /** A visit goes on without doing anything exactly when the directory
      holding the visited path is not under the storage root, has too few
      elements, or its date part fails the layout (or the failing text
      contains "cannot parse"). */
  lemma VisitContinuesExactly(storage: string, table: RetentionTable, now: int, path: string)
    ensures var b := BuildDirectory(storage, Dir(path));
      Visit(storage, table, now, false, path).Continue? <==>
        (b.Failed? || (b.Built? && ToEpoch(b.dir, Dir(path)).Failure? && PassedOver(ToEpoch(b.dir, Dir(path)).error)))
  {
    VisitCases(storage, table, now, path);
    RetainFailsLikeToEpoch(storage, table, now, Dir(path));
  }

  /** A visit ends the program exactly when the directory holding the
      visited path has a company id or device number that is not an
      integer, or a date part that is wrong in a way other than a layout
      mismatch: month or day out of range, or text after the day. */
  lemma VisitExitsExactly(storage: string, table: RetentionTable, now: int, path: string)
    ensures var b := BuildDirectory(storage, Dir(path));
      Visit(storage, table, now, false, path).Exit? <==>
        (b.Fatal? || (b.Built? && ToEpoch(b.dir, Dir(path)).Failure? && !PassedOver(ToEpoch(b.dir, Dir(path)).error)))
  {
    VisitCases(storage, table, now, path);
    RetainFailsLikeToEpoch(storage, table, now, Dir(path));
  }

  // The walk.

  /** A file or directory as the walk finds it: a name and, for a directory,
      its entries in the order the directory listing gives them. */
  datatype Node = File(name: string) | Folder(name: string, children: seq<Node>)

  /** A removal the cleaner made: the directory, and the number of the
      callback (counting from 0) that made it. */
  datatype Removal = Removal(dir: string, visit: nat)

  /** What has happened so far: the paths handed to the callback, in order,
      and the directories removed. */
  datatype Trace = Trace(visited: seq<string>, removals: seq<Removal>)

  /** What the callback or a walk of a subtree hands back: nil,
      filepath.SkipDir, the "timed out" error, or nothing at all because
      Check ended the program. */
  datatype WalkError = NoError | SkipDirError | TimedOutError | Exited(cause: FatalCause)

  datatype Step = Step(err: WalkError, trace: Trace)

  /** The cleaner's surroundings: the storage root, the retention table, the
      clock reading at each callback, and the number of the first callback
      at which the timeout has fired. */
  datatype Env = Env(storage: string, table: RetentionTable, clock: nat -> int, deadline: nat)

  /** `p` is `dir` or lies below it. */
  predicate Under(p: string, dir: string) {
    p == dir || (|dir| < |p| && p[..|dir| + 1] == dir + "/")
  }

  /** `p` was removed by one of `removals`, directly or with a directory
      above it: os.Lstat on it fails. */
  predicate Gone(removals: seq<Removal>, p: string) {
    exists i :: 0 <= i < |removals| && Under(p, removals[i].dir)
  }

  /** `after` continues `before`: nothing visited or removed is forgotten. */
  predicate Extends(before: Trace, after: Trace) {
    before.visited <= after.visited && before.removals <= after.removals
  }

  /** Every removal in the trace was made by a callback before the timeout
      fired, of the directory holding the path that callback was given,
      and that directory was an expired date directory at that callback's
      clock reading. */
  ghost predicate Sound(env: Env, tr: Trace) {
    forall i :: 0 <= i < |tr.removals| ==> RemovalSound(env, tr, tr.removals[i])
  }

  ghost predicate RemovalSound(env: Env, tr: Trace, rm: Removal) {
    && rm.visit < |tr.visited|
    && rm.visit < env.deadline
    && rm.dir == Dir(tr.visited[rm.visit])
    && Expired(env.storage, env.table, env.clock(rm.visit), rm.dir)
  }

  /** A removal that is sound for a trace stays sound as the trace grows. */
  lemma SoundExtends(env: Env, before: Trace, after: Trace)
    requires Extends(before, after)
    ensures Sound(env, before) ==> forall i :: 0 <= i < |before.removals| ==> RemovalSound(env, after, before.removals[i])
  {
    forall i | 0 <= i < |before.removals| && Sound(env, before)
      ensures RemovalSound(env, after, before.removals[i])
    {
      var rm := before.removals[i];
      assert RemovalSound(env, before, rm);
      assert after.visited[rm.visit] == before.visited[rm.visit];
    }
  }

  /** A visit keeps the trace sound when it removes nothing, or removes the
      directory holding its path while that is an expired date directory and
      the timeout has not fired. */
  lemma SoundAfterVisit(env: Env, tr: Trace, path: string, removals: seq<Removal>)
    requires var k := |tr.visited|;
      removals == tr.removals
      || (removals == tr.removals + [Removal(Dir(path), k)]
          && k < env.deadline && Expired(env.storage, env.table, env.clock(k), Dir(path)))
    ensures Sound(env, tr) ==> Sound(env, Trace(tr.visited + [path], removals))
  {
  }

  /** The last callback in the trace ended the program with `cause`. */
  predicate EndedBy(env: Env, tr: Trace, cause: FatalCause) {
    var k := |tr.visited| - 1;
    k >= 0 && Visit(env.storage, env.table, env.clock(k), k >= env.deadline, tr.visited[k]) == Exit(cause)
  }

  /** The error the callback returns for an outcome; a removal returns nil. */
  function ErrorOf(outcome: VisitOutcome): WalkError {
    match outcome
    case TimedOut => TimedOutError
    case Continue => NoError
    case SkipDir => SkipDirError
    case RemoveThenContinue(_) => NoError
    case Exit(cause) => Exited(cause)
  }

  /** The removals after the callback numbered `k` had `outcome`. */
  function RemovalsAfter(removals: seq<Removal>, k: nat, outcome: VisitOutcome): seq<Removal> {
    if outcome.RemoveThenContinue? then removals + [Removal(outcome.dir, k)] else removals
  }

  /** The callback numbered `k` removes at most the directory holding its
      path, and only while that is expired and the timeout has not fired. */
  lemma CallbackRemoval(env: Env, k: nat, removals: seq<Removal>, path: string)
    ensures var rs := RemovalsAfter(removals, k, Visit(env.storage, env.table, env.clock(k), k >= env.deadline, path));
      rs == removals
      || (rs == removals + [Removal(Dir(path), k)]
          && k < env.deadline && Expired(env.storage, env.table, env.clock(k), Dir(path)))
  {
  }

  /** An exit in the callback is the exit of the last visit of the trace. */
  lemma CallbackEnded(env: Env, tr: Trace, path: string, removals: seq<Removal>)
    ensures var k := |tr.visited|;
      var outcome := Visit(env.storage, env.table, env.clock(k), k >= env.deadline, path);
      outcome.Exit? ==> EndedBy(env, Trace(tr.visited + [path], removals), outcome.cause)
  {
    LastOfAppend(tr.visited, path);
  }

  lemma LastOfAppend(visited: seq<string>, path: string)
    ensures |visited + [path]| - 1 == |visited|
    ensures (visited + [path])[|visited|] == path
  {
  }

  /** One call of the callback on `path`: it is numbered by how many calls
      came before, reads the clock for that number, and sees the timeout
      once that number reaches the deadline. */
  function Callback(env: Env, tr: Trace, path: string): (r: Step)
    ensures r.trace.visited == tr.visited + [path]
    ensures r.trace.removals == tr.removals
        || (r.trace.removals == tr.removals + [Removal(Dir(path), |tr.visited|)]
            && |tr.visited| < env.deadline
            && Expired(env.storage, env.table, env.clock(|tr.visited|), Dir(path)))
    ensures r.err.TimedOutError? <==> |tr.visited| >= env.deadline
    ensures r.err.TimedOutError? ==> r.trace.removals == tr.removals
    ensures r.err.Exited? ==> EndedBy(env, r.trace, r.err.cause)
    ensures Sound(env, tr) ==> Sound(env, r.trace)
  {
    var k := |tr.visited|;
    var outcome := Visit(env.storage, env.table, env.clock(k), k >= env.deadline, path);
    var removals := RemovalsAfter(tr.removals, k, outcome);
    CallbackRemoval(env, k, tr.removals, path);
    SoundAfterVisit(env, tr, path, removals);
    CallbackEnded(env, tr, path, removals);
    Step(ErrorOf(outcome), Trace(tr.visited + [path], removals))
  }

  /** filepath.walk on `path`, which exists and is `node`: a file is handed
      to the callback; a directory is listed first, then handed to the
      callback, and unless the callback said otherwise its listed entries
      are walked in turn. */
  function WalkNode(env: Env, tr: Trace, path: string, node: Node): (r: Step)
    ensures Extends(tr, r.trace) && |tr.visited| < |r.trace.visited|
    ensures Sound(env, tr) ==> Sound(env, r.trace)
    ensures |tr.visited| <= env.deadline ==> (r.err.TimedOutError? <==> env.deadline < |r.trace.visited|)
    ensures |tr.visited| <= env.deadline ==> |r.trace.visited| <= env.deadline + 1
    ensures env.deadline <= |tr.visited| ==> r == Step(TimedOutError, Trace(tr.visited + [path], tr.removals))
    ensures r.err.Exited? ==> EndedBy(env, r.trace, r.err.cause)
    decreases node
  {
    match node
    case File(_) => Callback(env, tr, path)
    case Folder(_, children) =>
      var s := Callback(env, tr, path);
      if s.err.NoError? then WalkEntries(env, s.trace, path, children, tr.removals) else s
  }

  /** The loop of filepath.walk over a directory's entries. `listing` is
      what had been removed when the directory was listed: an entry gone by
      then is not listed at all. An entry gone since is still handed to the
      callback, with the error of os.Lstat, which the callback ignores; a
      SkipDir from it is ignored too. A SkipDir from a walked directory
      skips only that directory; from a file it ends the loop and is handed
      up. */
  function WalkEntries(env: Env, tr: Trace, path: string, entries: seq<Node>, listing: seq<Removal>): (r: Step)
    ensures Extends(tr, r.trace)
    ensures Sound(env, tr) ==> Sound(env, r.trace)
    ensures |tr.visited| <= env.deadline ==> (r.err.TimedOutError? <==> env.deadline < |r.trace.visited|)
    ensures |tr.visited| <= env.deadline ==> |r.trace.visited| <= env.deadline + 1
    ensures r.err.Exited? ==> EndedBy(env, r.trace, r.err.cause)
    decreases entries
  {
    if |entries| == 0 then Step(NoError, tr)
    else
      var child := entries[0];
      var p := Join([path, child.name]);
      if Gone(listing, p) then WalkEntries(env, tr, path, entries[1..], listing)
      else if Gone(tr.removals, p) then
        var s := Callback(env, tr, p);
        if s.err.NoError? || s.err.SkipDirError? then WalkEntries(env, s.trace, path, entries[1..], listing) else s
      else
        var s := WalkNode(env, tr, p, child);
        if s.err.NoError? || (child.Folder? && s.err.SkipDirError?) then WalkEntries(env, s.trace, path, entries[1..], listing)
        else s
  }

  /** What os.Lstat finds at the storage root. */
  datatype Root = Missing | Present(node: Node)

  /** filepath.Walk from the storage root: a root that cannot be read is
      handed to the callback with the error, anything else is walked; a
      SkipDir that reaches the top ends the walk without error. */
  function Walk(env: Env, root: Root): (r: Step)
    ensures !r.err.SkipDirError?
    ensures Sound(env, r.trace)
    ensures r.err.TimedOutError? <==> env.deadline < |r.trace.visited|
    ensures 1 <= |r.trace.visited| <= env.deadline + 1
    ensures r.err.Exited? ==> EndedBy(env, r.trace, r.err.cause)
    ensures env.deadline == 0 ==> r == Step(TimedOutError, Trace([env.storage], []))
  {
    var start := Trace([], []);
    var s := match root {
      case Missing => Callback(env, start, env.storage)
      case Present(node) => WalkNode(env, start, env.storage, node)
    };
    if s.err.SkipDirError? then s.(err := NoError) else s
  }

  /** How a run of the cleaner ends: the walk finished, the timeout was
      reported, or Check ended the program. */
  datatype Ending = Finished | ReportedTimeout | Stopped(cause: FatalCause)

  datatype Run = Run(ending: Ending, trace: Trace)

  /** walker: walks the storage root, reports a "timed out" result and hands
      any other result to Check. The walk itself ends only with nil or the
      timeout, so that Check never fires; the program stops only where a
      callback stopped it. */
  function Walker(env: Env, root: Root): (r: Run)
    ensures Sound(env, r.trace)
    ensures r.ending.ReportedTimeout? <==> env.deadline < |r.trace.visited|
    ensures r.ending.Stopped? ==> EndedBy(env, r.trace, r.ending.cause)
    ensures env.deadline == 0 ==> r == Run(ReportedTimeout, Trace([env.storage], []))
  {
    var s := Walk(env, root);
    match s.err {
      case TimedOutError => Run(ReportedTimeout, s.trace)
      case Exited(cause) => Run(Stopped(cause), s.trace)
      case _ => Run(Finished, s.trace)
    }
  }

  // Walks through date directories.

  /** A removal recorded later still covers what it covered. */
  lemma GoneGrows(removals: seq<Removal>, more: seq<Removal>, p: string)
    requires Gone(removals, p) && removals <= more
    ensures Gone(more, p)
  {
    var i :| 0 <= i < |removals| && Under(p, removals[i].dir);
    assert more[i] == removals[i];
  }

  /** An entry of a removed directory is gone too. */
  lemma GoneChild(removals: seq<Removal>, dir: string, name: string)
    requires Gone(removals, dir)
    ensures Gone(removals, dir + "/" + name)
  {
    var i :| 0 <= i < |removals| && Under(dir, removals[i].dir);
    var r := removals[i].dir;
    var p := dir + "/" + name;
    if dir != r {
      assert p[..|r| + 1] == dir[..|r| + 1];
    }
    assert Under(p, r);
  }

  /** The paths of the entries of `dir` that were listed: those not yet
      gone when `dir` was listed, in order. */
  function ListedPaths(dir: string, entries: seq<Node>, listing: seq<Removal>): (r: seq<string>)
    ensures |r| <= |entries|
  {
    if |entries| == 0 then []
    else
      var p := dir + "/" + entries[0].name;
      (if Gone(listing, p) then [] else [p]) + ListedPaths(dir, entries[1..], listing)
  }

  /** When nothing had been removed from under `dir` at its listing, every
      entry is listed. */
  lemma {:induction false} AllListed(dir: string, entries: seq<Node>, listing: seq<Removal>)
    requires forall i :: 0 <= i < |entries| ==> !Gone(listing, dir + "/" + entries[i].name)
    ensures |ListedPaths(dir, entries, listing)| == |entries|
    ensures forall i :: 0 <= i < |entries| ==> ListedPaths(dir, entries, listing)[i] == dir + "/" + entries[i].name
    decreases |entries|
  {
    if |entries| > 0 {
      assert !Gone(listing, dir + "/" + entries[0].name);
      AllListed(dir, entries[1..], listing);
      assert forall i :: 1 <= i < |entries| ==> entries[1..][i - 1] == entries[i];
    }
  }

  /** Once a date directory is gone, the rest of the files listed in it are
      still handed to the callback, one by one and in order; each decides
      about the same directory again, and the loop over them ends without
      error. */
  lemma {:induction false} GoneEntriesRevisited(env: Env, tr: Trace, dir: string, date: Date, entries: seq<Node>, listing: seq<Removal>)
    requires DateDirectory(env.storage, dir, date) && IsCleanPath(dir)
    requires forall i :: 0 <= i < |entries| ==> entries[i].File? && IsCleanName(entries[i].name)
    requires Gone(tr.removals, dir)
    requires |tr.visited| + |entries| <= env.deadline
    ensures var r := WalkEntries(env, tr, dir, entries, listing);
      && r.err == NoError
      && r.trace.visited == tr.visited + ListedPaths(dir, entries, listing)
    decreases |entries|
  {
    if |entries| > 0 {
      var next := GoneEntryStep(env, tr, dir, date, entries, listing);
      GoneEntriesRevisited(env, next, dir, date, entries[1..], listing);
      ListedPathsStep(tr.visited, next.visited, dir, entries, listing);
    }
  }

  /** Appending the visit of the first listed entry and then those of the
      rest appends the visits of all listed entries. */
  lemma ListedPathsStep(before: seq<string>, next: seq<string>, dir: string, entries: seq<Node>, listing: seq<Removal>)
    requires |entries| > 0
    requires var p := dir + "/" + entries[0].name;
      next == before + (if Gone(listing, p) then [] else [p])
    ensures next + ListedPaths(dir, entries[1..], listing) == before + ListedPaths(dir, entries, listing)
  {
  }

  /** One turn of the loop over the entries of a removed date directory:
      the entry is skipped if it was not listed, or handed to the callback,
      which answers nil or SkipDir. */
  lemma GoneEntryStep(env: Env, tr: Trace, dir: string, date: Date, entries: seq<Node>, listing: seq<Removal>)
      returns (next: Trace)
    requires DateDirectory(env.storage, dir, date) && IsCleanPath(dir)
    requires |entries| > 0 && entries[0].File? && IsCleanName(entries[0].name)
    requires Gone(tr.removals, dir)
    requires |tr.visited| < env.deadline
    ensures Gone(next.removals, dir)
    ensures var p := dir + "/" + entries[0].name;
      next.visited == tr.visited + (if Gone(listing, p) then [] else [p])
    ensures WalkEntries(env, tr, dir, entries, listing) == WalkEntries(env, next, dir, entries[1..], listing)
  {
    var name := entries[0].name;
    var p := dir + "/" + name;
    DirOfChild(dir, name);
    if Gone(listing, p) {
      next := tr;
    } else {
      GoneChild(tr.removals, dir, name);
      next := GoneEntryCallback(env, tr, dir, date, name);
    }
  }

  /** The callback on an entry of a removed date directory answers nil or
      SkipDir, and the directory stays removed. */
  lemma GoneEntryCallback(env: Env, tr: Trace, dir: string, date: Date, name: string) returns (next: Trace)
    requires DateDirectory(env.storage, dir, date) && IsCleanPath(dir) && IsCleanName(name)
    requires Gone(tr.removals, dir)
    requires |tr.visited| < env.deadline
    ensures var s := Callback(env, tr, dir + "/" + name);
      && (s.err.NoError? || s.err.SkipDirError?)
      && s.trace == next
    ensures next.visited == tr.visited + [dir + "/" + name]
    ensures Gone(next.removals, dir)
  {
    var p := dir + "/" + name;
    DirOfChild(dir, name);
    var s := Callback(env, tr, p);
    VisitOfDateDirectory(env.storage, env.table, env.clock(|tr.visited|), p, date);
    GoneGrows(tr.removals, s.trace.removals, dir);
    next := s.trace;
  }

  /** The loop over an expired date directory holding files: the first file
      makes the callback remove the directory, the others are handed to it
      after the removal, and the loop ends without error. */
  lemma PurgeOfDateDirectory(env: Env, tr: Trace, dir: string, date: Date, entries: seq<Node>, listing: seq<Removal>)
    requires DateDirectory(env.storage, dir, date) && IsCleanPath(dir)
    requires |entries| > 0
    requires forall i :: 0 <= i < |entries| ==> entries[i].File? && IsCleanName(entries[i].name)
    requires !Gone(listing, dir + "/" + entries[0].name) && !Gone(tr.removals, dir + "/" + entries[0].name)
    requires |tr.visited| + |entries| <= env.deadline
    requires RetentionEnd(env.table, BuildDirectory(env.storage, dir).dir, date) < env.clock(|tr.visited|)
    ensures var r := WalkEntries(env, tr, dir, entries, listing);
      && r.err == NoError
      && |tr.removals| < |r.trace.removals|
      && r.trace.removals[|tr.removals|] == Removal(dir, |tr.visited|)
      && r.trace.visited == tr.visited + [dir + "/" + entries[0].name] + ListedPaths(dir, entries[1..], listing)
  {
    var name := entries[0].name;
    var p := dir + "/" + name;
    DirOfChild(dir, name);
    CallbackRemoves(env, tr, dir, date, name);
    var s := Callback(env, tr, p);
    assert WalkNode(env, tr, p, entries[0]) == s;
    assert Under(dir, s.trace.removals[|tr.removals|].dir);
    GoneEntriesRevisited(env, s.trace, dir, date, entries[1..], listing);
    var rest := WalkEntries(env, s.trace, dir, entries[1..], listing);
    assert WalkEntries(env, tr, dir, entries, listing) == rest;
    assert rest.trace.removals[|tr.removals|] == s.trace.removals[|tr.removals|];
  }

  /** The callback on an entry of an expired date directory removes that
      directory. */
  lemma CallbackRemoves(env: Env, tr: Trace, dir: string, date: Date, name: string)
    requires DateDirectory(env.storage, dir, date) && IsCleanPath(dir) && IsCleanName(name)
    requires |tr.visited| < env.deadline
    requires RetentionEnd(env.table, BuildDirectory(env.storage, dir).dir, date) < env.clock(|tr.visited|)
    ensures Callback(env, tr, dir + "/" + name)
         == Step(NoError, Trace(tr.visited + [dir + "/" + name], tr.removals + [Removal(dir, |tr.visited|)]))
  {
    DirOfChild(dir, name);
    VisitOfDateDirectory(env.storage, env.table, env.clock(|tr.visited|), dir + "/" + name, date);
  }

  /** The loop over a date directory still inside its retention period,
      whose first entry is a file: the callback answers SkipDir for that
      file, which ends the loop; nothing is removed and the later entries
      are never visited. */
  lemma KeptDateDirectoryLeft(env: Env, tr: Trace, dir: string, date: Date, entries: seq<Node>, listing: seq<Removal>)
    requires DateDirectory(env.storage, dir, date) && IsCleanPath(dir)
    requires |entries| > 0 && entries[0].File? && IsCleanName(entries[0].name)
    requires !Gone(listing, dir + "/" + entries[0].name) && !Gone(tr.removals, dir + "/" + entries[0].name)
    requires |tr.visited| < env.deadline
    requires env.clock(|tr.visited|) <= RetentionEnd(env.table, BuildDirectory(env.storage, dir).dir, date)
    ensures WalkEntries(env, tr, dir, entries, listing)
         == Step(SkipDirError, Trace(tr.visited + [dir + "/" + entries[0].name], tr.removals))
  {
    var p := dir + "/" + entries[0].name;
    DirOfChild(dir, entries[0].name);
    VisitOfDateDirectory(env.storage, env.table, env.clock(|tr.visited|), p, date);
  }

  /** The date directory of a data path ToPath produces, when the strip path
      does not recur in its date part. */
  lemma DateDirectoryOfToPath(d: Directory, t: int)
    requires WellFormed(d) && InLayoutRange(t) && StripUnambiguous(d, FormatDate(CivilOf(t)))
    ensures DateDirectory(d.base, ToPath(d, t), CivilOf(t))
    ensures BuildDirectory(d.base, ToPath(d, t)).dir == d
    ensures IsCleanPath(ToPath(d, t))
  {
    ToPathLayout(d, t);
    BuildDirectoryToPath(d, t);
    StripStartOfToPath(d, t);
  }

  /** A path below a data path, one element down. */
  lemma SubdirectoryLayout(d: Directory, t: int, h: string)
    requires WellFormed(d) && InLayoutRange(t) && IsCleanName(h)
    ensures var date := FormatDate(CivilOf(t));
      && IsCleanPath(ToPath(d, t) + "/" + h)
      && ToPath(d, t) + "/" + h
        == d.base + "/" + Itoa(d.companyID) + "/" + d.deviceName + "/" + Itoa(d.deviceNumber) + ("/" + (date + "/" + h))
      && ToPath(d, t) + "/" + h == (d.base + "/" + Itoa(d.companyID) + "/") + StripPath(d) + (date + "/" + h)
  {
    ToPathLayout(d, t);
    NameIsCleanRelPath(h);
    ConcatCleanPaths(ToPath(d, t), h);
    var cid, num := Itoa(d.companyID), Itoa(d.deviceNumber);
    RegroupSubdirectory(d.base, cid, d.deviceName, num, FormatDate(CivilOf(t)), h);
  }

  lemma RegroupSubdirectory(base: string, cid: string, name: string, num: string, date: string, h: string)
    ensures var top := base + "/" + cid + "/" + (name + "/" + num + "/") + date;
      && top + "/" + h == base + "/" + cid + "/" + name + "/" + num + ("/" + (date + "/" + h))
      && top + "/" + h == (base + "/" + cid + "/") + (name + "/" + num + "/") + (date + "/" + h)
  {
  }

  /** The directory of a path one element below a data path is that of
      the data path. */
  lemma SubdirectoryBuilt(d: Directory, t: int, h: string)
    requires WellFormed(d) && InLayoutRange(t) && IsCleanName(h)
    ensures BuildDirectory(d.base, ToPath(d, t) + "/" + h) == Built(d)
  {
    SubdirectoryLayout(d, t, h);
    BuildDirectoryOfLayout(d, "/" + (FormatDate(CivilOf(t)) + "/" + h));
  }

  /** What ToEpoch reads from a path one element below a data path: the
      date followed by "/" and the element, which is "extra text". */
  lemma SubdirectoryToEpoch(d: Directory, t: int, h: string)
    requires WellFormed(d) && InLayoutRange(t) && IsCleanName(h)
    requires StripUnambiguous(d, FormatDate(CivilOf(t)) + "/" + h)
    ensures StripInRange(d, ToPath(d, t) + "/" + h)
    ensures ToEpoch(d, ToPath(d, t) + "/" + h)
         == Failure(ParseError(ExtraText("/" + h), FormatDate(CivilOf(t)) + "/" + h))
  {
    SubdirectoryStrip(d, t, h);
    ToEpochOfExtra(d, ToPath(d, t) + "/" + h, CivilOf(t), "/", h);
  }

  /** A directory whose date part is a whole date followed by `/` and more
      text fails to parse, reporting that text as extra. */
  lemma ToEpochOfExtra(d: Directory, path: string, date: Date, slash: string, h: string)
    requires slash == "/"
    requires StripInRange(d, path) && LayoutDate(date)
    requires StripStart(d, path) == FormatDate(date) + slash + h
    ensures ToEpoch(d, path) == Failure(ParseError(ExtraText(slash + h), FormatDate(date) + slash + h))
  {
    var f := FormatDate(date);
    Regroup(f, slash, h);
    ParseFormatThenExtra(date, slash + h);
    ToEpochOfFailure(d, path, ParseError(ExtraText(slash + h), f + slash + h));
  }

  lemma Regroup(a: string, b: string, c: string)
    ensures a + b + c == a + (b + c)
  {
  }

  /** ToEpoch reports the error time.Parse reports for the stripped path. */
  lemma ToEpochOfFailure(d: Directory, path: string, e: ParseError)
    requires StripInRange(d, path) && ParseDate(StripStart(d, path)) == Failure(e)
    ensures ToEpoch(d, path) == Failure(e)
  {
  }

  lemma SubdirectoryStrip(d: Directory, t: int, h: string)
    requires WellFormed(d) && InLayoutRange(t) && IsCleanName(h)
    requires StripUnambiguous(d, FormatDate(CivilOf(t)) + "/" + h)
    ensures StripInRange(d, ToPath(d, t) + "/" + h)
    ensures StripStart(d, ToPath(d, t) + "/" + h) == FormatDate(CivilOf(t)) + "/" + h
  {
    var date := FormatDate(CivilOf(t));
    ToPathLayout(d, t);
    RegroupSubdirectory(d.base, Itoa(d.companyID), d.deviceName, Itoa(d.deviceNumber), date, h);
    StripStartAfter(d, d.base + "/" + Itoa(d.companyID) + "/", date + "/" + h);
  }

  /** The "extra text" error after a date says "cannot parse" only if the
      text after the date does. */
  lemma ExtraTextAfterDate(date: Date, h: string)
    requires LayoutDate(date) && 'c' !in h
    ensures !SaysCannotParse(ParseError(ExtraText("/" + h), FormatDate(date) + "/" + h))
  {
    var dateText := FormatDate(date) + "/" + h;
    FormatDateChars(date);
    assert 'c' !in dateText;
    NoOccurrenceWithoutHead(dateText, CannotParseText);
    assert HasSuffix(dateText, "/" + h);
    OtherTextQuotesValue(ParseError(ExtraText("/" + h), dateText));
  }

  /** A visit to an entry two levels below a data path (a file in an hour
      directory, say) decides about the level in between, whose date part
      has trailing text: Retain fails with "extra text", and the program
      ends. */
  lemma VisitBelowSubdirectory(storage: string, table: RetentionTable, now: int, d: Directory, t: int, h: string, leaf: string)
    requires WellFormed(d) && d.base == storage && InLayoutRange(t)
    requires IsCleanName(h) && IsCleanName(leaf) && 'c' !in h && PrintableAscii(h)
    requires StripUnambiguous(d, FormatDate(CivilOf(t)) + "/" + h)
    ensures Visit(storage, table, now, false, ToPath(d, t) + "/" + h + "/" + leaf)
         == Exit(BadDate(ParseError(ExtraText("/" + h), FormatDate(CivilOf(t)) + "/" + h)))
    ensures Join([ToPath(d, t) + "/" + h, leaf]) == ToPath(d, t) + "/" + h + "/" + leaf
  {
    var sub := ToPath(d, t) + "/" + h;
    SubdirectoryLayout(d, t, h);
    DirOfChild(sub, leaf);
    SubdirectoryBuilt(d, t, h);
    SubdirectoryToEpoch(d, t, h);
    ExtraTextAfterDate(CivilOf(t), h);
  }

  /** Purging a date directory from the visit of a subdirectory below it
      ends the program. The subdirectory was listed before its own visit
      removed the date directory above it, so its first entry is then
      handed to the callback, which finds "extra text" after the date. */
  lemma PurgeFromSubdirectoryExits(env: Env, tr: Trace, d: Directory, t: int, h: string, children: seq<Node>)
    requires WellFormed(d) && d.base == env.storage && InLayoutRange(t)
    requires IsCleanName(h) && 'c' !in h && PrintableAscii(h)
    requires StripUnambiguous(d, FormatDate(CivilOf(t)) + "/" + h)
    requires |children| > 0 && IsCleanName(children[0].name)
    requires !Gone(tr.removals, ToPath(d, t) + "/" + h + "/" + children[0].name)
    requires |tr.visited| + 1 < env.deadline
    requires RetentionEnd(env.table, d, CivilOf(t)) < env.clock(|tr.visited|)
    ensures WalkNode(env, tr, ToPath(d, t) + "/" + h, Folder(h, children)).err
         == Exited(BadDate(ParseError(ExtraText("/" + h), FormatDate(CivilOf(t)) + "/" + h)))
  {
    var top := ToPath(d, t);
    var sub := top + "/" + h;
    SubdirectoryVisitPurges(env, tr, d, t, h);
    var s := Callback(env, tr, sub);
    assert WalkNode(env, tr, sub, Folder(h, children)) == WalkEntries(env, s.trace, sub, children, tr.removals);
    assert Under(top, s.trace.removals[|tr.removals|].dir);
    EntryBelowPurgedExits(env, s.trace, d, t, h, children, tr.removals);
  }

  /** The visit of a subdirectory of an expired date directory removes the
      date directory. */
  lemma SubdirectoryVisitPurges(env: Env, tr: Trace, d: Directory, t: int, h: string)
    requires WellFormed(d) && d.base == env.storage && InLayoutRange(t)
    requires IsCleanName(h) && StripUnambiguous(d, FormatDate(CivilOf(t)) + "/" + h)
    requires |tr.visited| < env.deadline
    requires RetentionEnd(env.table, d, CivilOf(t)) < env.clock(|tr.visited|)
    ensures Callback(env, tr, ToPath(d, t) + "/" + h)
         == Step(NoError, Trace(tr.visited + [ToPath(d, t) + "/" + h], tr.removals + [Removal(ToPath(d, t), |tr.visited|)]))
  {
    StripUnambiguousBelow(d, FormatDate(CivilOf(t)), h);
    DateDirectoryOfToPath(d, t);
    CallbackRemoves(env, tr, ToPath(d, t), CivilOf(t), h);
  }

  /** In the loop over a subdirectory of a removed date directory, the first
      listed entry is handed to the callback, which ends the program. */
  lemma EntryBelowPurgedExits(env: Env, tr: Trace, d: Directory, t: int, h: string, children: seq<Node>, listing: seq<Removal>)
    requires WellFormed(d) && d.base == env.storage && InLayoutRange(t)
    requires IsCleanName(h) && 'c' !in h && PrintableAscii(h)
    requires StripUnambiguous(d, FormatDate(CivilOf(t)) + "/" + h)
    requires |children| > 0 && IsCleanName(children[0].name)
    requires Gone(tr.removals, ToPath(d, t))
    requires !Gone(listing, ToPath(d, t) + "/" + h + "/" + children[0].name)
    requires |tr.visited| < env.deadline
    ensures WalkEntries(env, tr, ToPath(d, t) + "/" + h, children, listing).err
         == Exited(BadDate(ParseError(ExtraText("/" + h), FormatDate(CivilOf(t)) + "/" + h)))
  {
    var sub := ToPath(d, t) + "/" + h;
    GoneChild(tr.removals, ToPath(d, t), h);
    ErrorBelowSubdirectory(env, |tr.visited|, d, t, h, children[0].name);
    EntryOfGoneDirectory(env, tr, sub, children, listing);
  }

  /** The error the callback numbered `k` returns for an entry two levels
      below a date directory, before the timeout. */
  lemma ErrorBelowSubdirectory(env: Env, k: nat, d: Directory, t: int, h: string, leaf: string)
    requires WellFormed(d) && d.base == env.storage && InLayoutRange(t)
    requires IsCleanName(h) && IsCleanName(leaf) && 'c' !in h && PrintableAscii(h)
    requires StripUnambiguous(d, FormatDate(CivilOf(t)) + "/" + h)
    ensures ErrorOf(Visit(env.storage, env.table, env.clock(k), false, ToPath(d, t) + "/" + h + "/" + leaf))
         == Exited(BadDate(ParseError(ExtraText("/" + h), FormatDate(CivilOf(t)) + "/" + h)))
    ensures Join([ToPath(d, t) + "/" + h, leaf]) == ToPath(d, t) + "/" + h + "/" + leaf
  {
    VisitBelowSubdirectory(env.storage, env.table, env.clock(k), d, t, h, leaf);
  }

  /** In the loop over a directory removed after it was listed, the first
      entry not removed before the listing is handed to the callback, and
      the error of its visit ends the loop unless it lets the loop go on. */
  lemma EntryOfGoneDirectory(env: Env, tr: Trace, dir: string, children: seq<Node>, listing: seq<Removal>)
    requires |children| > 0 && Join([dir, children[0].name]) == dir + "/" + children[0].name
    requires Gone(tr.removals, dir) && !Gone(listing, dir + "/" + children[0].name)
    requires |tr.visited| < env.deadline
    ensures var e := ErrorOf(Visit(env.storage, env.table, env.clock(|tr.visited|), false, dir + "/" + children[0].name));
      e.Exited? ==> WalkEntries(env, tr, dir, children, listing).err == e
  {
    var p := dir + "/" + children[0].name;
    GoneChild(tr.removals, dir, children[0].name);
    var s := Callback(env, tr, p);
    assert WalkEntries(env, tr, dir, children, listing) == if s.err == NoError || s.err == SkipDirError then WalkEntries(env, s.trace, dir, children[1..], listing) else s;
  }

  /** The strip path does not recur in a date part if it does not recur in
      that date part followed by a further element. */
  lemma StripUnambiguousBelow(d: Directory, date: string, h: string)
    requires StripUnambiguous(d, date + "/" + h)
    ensures StripUnambiguous(d, date)
  {
    var sp := StripPath(d);
    var a := (sp + date)[1..];
    var b := (sp + (date + "/" + h))[1..];
    assert b == a + "/" + h;
    assert Index(b, sp) == -1;
    forall j
      ensures !OccursAt(a, sp, j)
    {
      if 0 <= j && j + |sp| <= |a| {
        assert a[j..j + |sp|] == b[j..j + |sp|];
        assert !OccursAt(b, sp, j);
      }
    }
  }
}

=== FILE: gofilepath.dfy ===
/** Lexical path handling from Go's `path/filepath` on Unix: `Clean`, `Join`
    and `Dir`. Paths are strings, the separator is `/`, there is no volume
    name. */
module GoFilepath {
  import opened GoStrings

  /** A path element that Clean keeps as it is: not empty, no separator,
      not `.` and not `..`. */
  predicate IsCleanName(e: string) {
    |e| > 0 && '/' !in e && e != "." && e != ".."
  }

  /** A path Clean leaves unchanged and that does not end in a separator:
      either `/` followed by clean names, or clean names alone, joined by
      single separators. */
  predicate IsCleanPath(p: string) {
    var parts := Split(p, '/');
    && |p| > 0
    && (p[0] == '/' ==> |parts| >= 2 && parts[0] == "" && forall i :: 1 <= i < |parts| ==> IsCleanName(parts[i]))
    && (p[0] != '/' ==> forall i :: 0 <= i < |parts| ==> IsCleanName(parts[i]))
  }

  /** A clean path that does not start at the root. */
  predicate IsCleanRelPath(p: string) {
    IsCleanPath(p) && p[0] != '/'
  }

  /** One element of Clean's single pass: `stack` holds the elements kept so
      far; empty and `.` elements vanish, `..` removes the previous kept name,
      or stays when there is none (only in a relative path). */
  function CleanStep(stack: seq<string>, e: string, rooted: bool): seq<string> {
    if e == "" || e == "." then stack
    else if e == ".." then
      if |stack| > 0 && stack[|stack| - 1] != ".." then stack[..|stack| - 1]
      else if rooted then stack
      else stack + [".."]
    else stack + [e]
  }

  function CleanElems(stack: seq<string>, elems: seq<string>, rooted: bool): seq<string>
    decreases |elems|
  {
    if |elems| == 0 then stack else CleanElems(CleanStep(stack, elems[0], rooted), elems[1..], rooted)
  }

  /** filepath.Clean: the shortest lexically equivalent path. */
  function Clean(p: string): string {
    if |p| == 0 then "."
    else
      var rooted := p[0] == '/';
      var out := CleanElems([], Split(p, '/'), rooted);
      if |out| == 0 then (if rooted then "/" else ".")
      else (if rooted then "/" else "") + JoinWith(out, '/')
  }

  /** filepath.Join: skips leading empty elements, joins the rest with
      separators and cleans the result; all-empty gives the empty string. */
  function Join(elems: seq<string>): string {
    if |elems| == 0 then ""
    else if elems[0] == "" then Join(elems[1..])
    else Clean(JoinWith(elems, '/'))
  }

  /** filepath.Dir: everything up to the last separator, cleaned. */
  function Dir(p: string): string {
    Clean(p[..LastIndex(p, "/") + 1])
  }

  /** Clean names pushed onto the stack stay, in order. */
  lemma {:induction false} CleanElemsOfNames(stack: seq<string>, elems: seq<string>, rooted: bool)
    requires forall i :: 0 <= i < |elems| ==> IsCleanName(elems[i])
    ensures CleanElems(stack, elems, rooted) == stack + elems
    decreases |elems|
  {
    if |elems| > 0 {
      CleanElemsOfNames(stack + [elems[0]], elems[1..], rooted);
      assert stack + [elems[0]] + elems[1..] == stack + elems;
    }
  }

  /** Clean does not change a clean path. */
  lemma CleanOfCleanPath(p: string)
    requires IsCleanPath(p)
    ensures Clean(p) == p
  {
    var parts := Split(p, '/');
    if p[0] == '/' {
      CleanElemsOfNames([], parts[1..], true);
      assert CleanStep([], parts[0], true) == [];
      assert CleanElems([], parts, true) == CleanElems([], parts[1..], true);
      assert CleanElems([], parts, true) == parts[1..];
      assert p == JoinWith(parts, '/') == parts[0] + ['/'] + JoinWith(parts[1..], '/');
      assert p == "/" + JoinWith(parts[1..], '/');
    } else {
      CleanElemsOfNames([], parts, false);
      assert CleanElems([], parts, false) == parts;
      assert Clean(p) == "" + JoinWith(parts, '/');
    }
  }

  /** A clean path followed by a separator and a clean relative path is a
      clean path whose elements are those of both sides. */
  lemma ConcatCleanPaths(a: string, b: string)
    requires IsCleanPath(a) && IsCleanRelPath(b)
    ensures Split(a + "/" + b, '/') == Split(a, '/') + Split(b, '/')
    ensures IsCleanPath(a + "/" + b)
    ensures a[0] == '/' <==> (a + "/" + b)[0] == '/'
  {
    SplitConcat(a, b, '/');
    assert a + "/" + b == a + ['/'] + b;
  }

  /** Joining a clean path with clean relative paths is plain concatenation
      with separators, and the result is clean. */
  lemma {:induction false} JoinCleanPaths(elems: seq<string>)
    requires |elems| >= 1 && IsCleanPath(elems[0])
    requires forall i :: 1 <= i < |elems| ==> IsCleanRelPath(elems[i])
    ensures Join(elems) == JoinWith(elems, '/')
    ensures IsCleanPath(JoinWith(elems, '/'))
    ensures elems[0][0] == '/' <==> JoinWith(elems, '/')[0] == '/'
    decreases |elems|
  {
    if |elems| > 1 {
      JoinCleanPaths(elems[1..]);
      ConcatCleanPaths(elems[0], JoinWith(elems[1..], '/'));
    }
    CleanOfCleanPath(JoinWith(elems, '/'));
  }

  /** A single clean name is a clean relative path. */
  lemma NameIsCleanRelPath(e: string)
    requires IsCleanName(e)
    ensures IsCleanRelPath(e)
  {
    SplitNoSep(e, '/');
  }

  /** The last separator of `parent + "/" + name` is the one before `name`. */
  lemma LastSlashBeforeName(parent: string, name: string)
    requires '/' !in name
    ensures LastIndex(parent + "/" + name, "/") == |parent|
  {
    var p := parent + "/" + name;
    assert p[|parent|..|parent| + 1] == "/";
    assert OccursAt(p, "/", |parent|);
    forall j | |parent| < j
      ensures !OccursAt(p, "/", j)
    {
      if j < |p| {
        assert p[j] == name[j - |parent| - 1];
      }
    }
  }

  /** A trailing separator does not change a clean path under Clean. */
  lemma CleanTrailingSlash(parent: string)
    requires IsCleanPath(parent)
    ensures Clean(parent + "/") == parent
  {
    SplitConcat(parent, "", '/');
    assert parent + "/" == parent + ['/'] + "";
    var parts := Split(parent, '/');
    assert Split(parent + "/", '/') == parts + [""];
    assert (parent + "/")[0] == parent[0];
    CleanOfCleanPath(parent);
    CleanElemsTrailingEmpty([], parts, parent[0] == '/');
  }

  /** The directory part of a clean path extended by one clean name is the
      path itself. */
  lemma DirOfChild(parent: string, name: string)
    requires IsCleanPath(parent) && IsCleanName(name)
    ensures Join([parent, name]) == parent + "/" + name
    ensures Dir(parent + "/" + name) == parent
  {
    NameIsCleanRelPath(name);
    JoinCleanPaths([parent, name]);
    LastSlashBeforeName(parent, name);
    var p := parent + "/" + name;
    assert p[..|parent| + 1] == parent + "/";
    CleanTrailingSlash(parent);
  }

  /** A trailing empty element does not change what Clean keeps. */
  lemma {:induction false} CleanElemsTrailingEmpty(stack: seq<string>, elems: seq<string>, rooted: bool)
    ensures CleanElems(stack, elems + [""], rooted) == CleanElems(stack, elems, rooted)
    decreases |elems|
  {
    if |elems| == 0 {
      assert CleanElems(stack, [""], rooted) == CleanElems(stack, [], rooted);
    } else {
      assert (elems + [""])[1..] == elems[1..] + [""];
      CleanElemsTrailingEmpty(CleanStep(stack, elems[0], rooted), elems[1..], rooted);
    }
  }

  /** Two empty elements change nothing. */
  lemma CleanElemsEmpties(stack: seq<string>, rooted: bool)
    ensures CleanElems(stack, ["", ""], rooted) == stack
  {
    assert CleanElems(stack, ["", ""], rooted) == CleanElems(stack, [""], rooted);
    assert CleanElems(stack, [""], rooted) == CleanElems(stack, [], rooted);
  }

  /** filepath.Join(name, number, "/") for an element `name` without
      separators: an empty or `.` name drops out, anything else (even `..`)
      stays in front of the number. */
  lemma JoinNameNumberSlash(name: string, num: string)
    requires '/' !in name && IsCleanName(num)
    ensures Join([name, num, "/"]) == if name == "" || name == "." then num else name + "/" + num
  {
    SplitNoSep(num, '/');
    SplitConcat(num, "", '/');
    assert num + "/" == num + ['/'] + "";
    SplitConcat(num, "/", '/');
    assert JoinWith([num, "/"], '/') == num + ['/'] + "/";
    var tail := Split(JoinWith([num, "/"], '/'), '/');
    assert tail == [num, "", ""];
    CleanElemsEmpties([num], false);
    if name == "" {
      assert Join([name, num, "/"]) == Join([num, "/"]);
      assert CleanElems([], tail, false) == CleanElems([num], ["", ""], false);
    } else {
      SplitNoSep(name, '/');
      SplitConcat(name, JoinWith([num, "/"], '/'), '/');
      var j := JoinWith([name, num, "/"], '/');
      assert j == name + ['/'] + JoinWith([num, "/"], '/');
      assert Split(j, '/') == [name, num, "", ""];
      assert j[0] == name[0];
      var first := CleanStep([], name, false);
      assert CleanElems([], [name, num, "", ""], false) == CleanElems(first, [num, "", ""], false);
      assert CleanElems(first, [num, "", ""], false) == CleanElems(first + [num], ["", ""], false);
      CleanElemsEmpties(first + [num], false);
      if name == "." {
        assert first == [];
      } else {
        assert first == [name];
        assert JoinWith([name, num], '/') == name + "/" + num;
      }
    }
  }

  /** A root followed by clean names is a clean path. */
  lemma RootedNamesClean(a: string, b: string)
    requires IsCleanName(a) && IsCleanName(b)
    ensures IsCleanPath("/" + a) && IsCleanPath("/" + a + "/" + b)
  {
    SplitNoSep(a, '/');
    SplitNoSep(b, '/');
    SplitConcat("", a, '/');
    assert "/" + a == "" + ['/'] + a;
    SplitConcat(a, b, '/');
    SplitConcat("", a + ['/'] + b, '/');
    assert "/" + a + "/" + b == "" + ['/'] + (a + ['/'] + b);
  }
}

=== FILE: gostrconv.dfy ===
/** Decimal conversions: Go's `strconv.Atoi` and `strconv.Itoa` on a 64-bit
    platform, where `int` is a signed 64-bit integer. */
module GoStrconv {
  import opened Wrappers

  const MinInt64: int := -0x8000_0000_0000_0000
  const MaxInt64: int := 0x7fff_ffff_ffff_ffff

  /** Go's `int` on a 64-bit platform. */
  type GoInt = x: int | MinInt64 <= x <= MaxInt64

  predicate IsDigit(c: char) {
    '0' <= c <= '9'
  }

  predicate AllDigits(s: string) {
    forall i :: 0 <= i < |s| ==> IsDigit(s[i])
  }

  function DigitValue(c: char): nat
    requires IsDigit(c)
  {
    c as int - '0' as int
  }

  function DigitChar(n: nat): char
    requires n < 10
  {
    ('0' as int + n) as char
  }

  function Pow10(k: nat): nat {
    if k == 0 then 1 else 10 * Pow10(k - 1)
  }

  /** The value of a string of decimal digits, read left to right. */
  function DigitsValue(s: string): nat
    requires AllDigits(s)
  {
    if |s| == 0 then 0 else 10 * DigitsValue(s[..|s| - 1]) + DigitValue(s[|s| - 1])
  }

  /** The shortest decimal rendering of `n`. */
  function Digits(n: nat): (s: string)
    ensures 1 <= |s| && AllDigits(s)
    ensures DigitsValue(s) == n
    ensures |s| > 1 ==> s[0] != '0'
  {
    if n < 10 then [DigitChar(n)]
    else
      var s := Digits(n / 10) + [DigitChar(n % 10)];
      assert s[..|s| - 1] == Digits(n / 10);
      s
  }

  /** strconv.Itoa: an optional minus sign followed by the shortest decimal
      rendering of the magnitude. */
  function Itoa(x: int): string {
    (if x < 0 then "-" else "") + Digits(if x < 0 then -x else x)
  }

  /** The error strconv.Atoi reports (invalid syntax or value out of range). */
  datatype NumError = NumError(input: string)

  /** The text Atoi accepts: an optional sign and at least one decimal digit. */
  predicate IsDecimalSyntax(s: string) {
    var body := if |s| > 0 && (s[0] == '-' || s[0] == '+') then s[1..] else s;
    |body| > 0 && AllDigits(body)
  }

  /** The number decimal text denotes: its digits, negated after a minus
      sign. */
  function SignedValue(s: string): int
    requires IsDecimalSyntax(s)
  {
    if s[0] == '-' then -(DigitsValue(s[1..]) as int)
    else if s[0] == '+' then DigitsValue(s[1..])
    else DigitsValue(s)
  }

  /** strconv.Atoi: an optional `+` or `-` followed by one or more decimal
      digits whose value fits in a 64-bit `int`; anything else is an error. */
  function Atoi(s: string): (r: Result<GoInt, NumError>)
    ensures !IsDecimalSyntax(s) ==> r == Failure(NumError(s))
    ensures r.Success? ==> IsDecimalSyntax(s) && (r.value < 0 ==> s[0] == '-')
    ensures r.Failure? ==> r.error == NumError(s)
  {
    var signed := |s| > 0 && (s[0] == '-' || s[0] == '+');
    var body := if signed then s[1..] else s;
    if |body| == 0 || !AllDigits(body) then Failure(NumError(s))
    else
      var v: int := if signed && s[0] == '-' then -(DigitsValue(body) as int) else DigitsValue(body);
      if v < MinInt64 || v > MaxInt64 then Failure(NumError(s)) else Success(v)
  }

  /** Atoi succeeds exactly on decimal text whose value fits in 64 bits, and
      returns that value. */
  lemma AtoiDenotes(s: string)
    ensures Atoi(s).Success? <==> IsDecimalSyntax(s) && MinInt64 <= SignedValue(s) <= MaxInt64
    ensures Atoi(s).Success? ==> Atoi(s).value == SignedValue(s)
  {
  }

  /** A value read from `k` digits is below 10^k. */
  lemma {:induction false} DigitsValueBound(s: string)
    requires AllDigits(s)
    ensures DigitsValue(s) < Pow10(|s|)
    decreases |s|
  {
    if |s| > 0 {
      DigitsValueBound(s[..|s| - 1]);
    }
  }

  /** A value below 10^k is rendered with at most `k` digits. */
  lemma {:induction false} DigitsLength(n: nat, k: nat)
    requires 1 <= k && n < Pow10(k)
    ensures |Digits(n)| <= k
    decreases n
  {
    if n >= 10 {
      assert k > 1;
      DigitsLength(n / 10, k - 1);
    }
  }

  /** Atoi reads a sign and a digit string as the signed value they denote. */
  lemma AtoiSignedDigits(neg: bool, body: string)
    requires |body| >= 1 && AllDigits(body) && body[0] != '-' && body[0] != '+'
    requires MinInt64 <= (if neg then -(DigitsValue(body) as int) else DigitsValue(body)) <= MaxInt64
    ensures Atoi((if neg then "-" else "") + body)
         == Success(if neg then -(DigitsValue(body) as int) else DigitsValue(body))
  {
    var s := (if neg then "-" else "") + body;
    if neg {
      assert s[0] == '-' && s[1..] == body;
    } else {
      assert s == body;
    }
  }

  /** Atoi inverts Itoa on every 64-bit integer. */
  lemma AtoiItoa(x: GoInt)
    ensures Atoi(Itoa(x)) == Success(x)
  {
    var body := Digits(if x < 0 then -(x as int) else x);
    AtoiSignedDigits(x < 0, body);
  }

  /** Rendering a parsed number never takes more characters than the text it
      was parsed from: Atoi drops a `+` sign and leading zeros, nothing else. */
  lemma ItoaAtoiLength(s: string)
    requires Atoi(s).Success?
    ensures |Itoa(Atoi(s).value)| <= |s|
  {
    var signed := |s| > 0 && (s[0] == '-' || s[0] == '+');
    var body := if signed then s[1..] else s;
    DigitsValueBound(body);
    DigitsLength(DigitsValue(body), |body|);
  }

  /** Itoa renders a non-empty string without separators or dots, so it is
      always a plain path element. */
  lemma ItoaShape(x: int)
    ensures |Itoa(x)| >= 1
    ensures forall i :: 0 <= i < |Itoa(x)| ==> Itoa(x)[i] == '-' || IsDigit(Itoa(x)[i])
  {
  }
}

=== FILE: gostrings.dfy ===
/** The parts of Go's `strings` package the retention cleaner relies on:
    `Index`, `LastIndex`, `Contains` and `Split`, on strings seen as
    sequences of characters. */
module GoStrings {

  /** `sub` occurs in `s` starting at position `i`. */
  predicate OccursAt(s: string, sub: string, i: int) {
    0 <= i && i + |sub| <= |s| && s[i..i + |sub|] == sub
  }

  predicate HasPrefix(s: string, prefix: string) {
    |prefix| <= |s| && s[..|prefix|] == prefix
  }

  predicate HasSuffix(s: string, suffix: string) {
    |suffix| <= |s| && s[|s| - |suffix|..] == suffix
  }

  /** First occurrence of `sub` in `s` at or after position `i`, or -1. */
  function IndexFrom(s: string, sub: string, i: nat): (r: int)
    ensures r == -1 || (i <= r && OccursAt(s, sub, r))
    ensures r == -1 ==> forall j :: i <= j ==> !OccursAt(s, sub, j)
    ensures r != -1 ==> forall j :: i <= j < r ==> !OccursAt(s, sub, j)
    decreases |s| - i
  {
    if i + |sub| > |s| then -1
    else if s[i..i + |sub|] == sub then i
    else IndexFrom(s, sub, i + 1)
  }

  /** strings.Index: the position of the first occurrence, or -1. */
  function Index(s: string, sub: string): (r: int)
    ensures r == -1 <==> forall j :: !OccursAt(s, sub, j)
    ensures r != -1 ==> OccursAt(s, sub, r) && forall j :: 0 <= j < r ==> !OccursAt(s, sub, j)
  {
    IndexFrom(s, sub, 0)
  }

  /** Last occurrence of `sub` in `s` starting at or before position `i`, or -1. */
  function LastIndexUpTo(s: string, sub: string, i: int): (r: int)
    ensures r == -1 || (0 <= r <= i && OccursAt(s, sub, r))
    ensures r == -1 ==> forall j :: j <= i ==> !OccursAt(s, sub, j)
    ensures r != -1 ==> forall j :: r < j <= i ==> !OccursAt(s, sub, j)
    decreases i + 1
  {
    if i < 0 then -1
    else if OccursAt(s, sub, i) then i
    else LastIndexUpTo(s, sub, i - 1)
  }

  /** strings.LastIndex: the position of the last occurrence, or -1. */
  function LastIndex(s: string, sub: string): (r: int)
    ensures r == -1 <==> forall j :: !OccursAt(s, sub, j)
    ensures r != -1 ==> OccursAt(s, sub, r) && forall j :: r < j ==> !OccursAt(s, sub, j)
  {
    LastIndexUpTo(s, sub, |s| - |sub|)
  }

  /** strings.Contains. */
  predicate Contains(s: string, sub: string) {
    Index(s, sub) != -1
  }

  /** Joins `parts` with `sep` between consecutive parts (strings.Join with a
      one-character separator). */
  function JoinWith(parts: seq<string>, sep: char): string
    requires |parts| >= 1
  {
    if |parts| == 1 then parts[0] else parts[0] + [sep] + JoinWith(parts[1..], sep)
  }

  /** strings.Split with a one-character separator: the maximal pieces between
      separators, including empty ones; never empty. */
  function Split(s: string, sep: char): (r: seq<string>)
    ensures |r| >= 1
    ensures forall i :: 0 <= i < |r| ==> sep !in r[i]
    ensures JoinWith(r, sep) == s
  {
    if |s| == 0 then [""]
    else
      var rest := Split(s[1..], sep);
      if s[0] == sep then
        [""] + rest
      else
        JoinHeadLemma([s[0]], rest, sep);
        [[s[0]] + rest[0]] + rest[1..]
  }

  /** Prepending to the first part prepends to the joined string. */
  lemma JoinHeadLemma(c: string, parts: seq<string>, sep: char)
    requires |parts| >= 1
    ensures JoinWith([c + parts[0]] + parts[1..], sep) == c + JoinWith(parts, sep)
  {
    var ps := [c + parts[0]] + parts[1..];
    if |parts| > 1 {
      assert ps[1..] == parts[1..];
      assert JoinWith(ps, sep) == (c + parts[0]) + [sep] + JoinWith(parts[1..], sep);
    }
  }

  /** Splitting around a separator splits each side independently. */
  lemma {:induction false} SplitConcat(a: string, b: string, sep: char)
    ensures Split(a + [sep] + b, sep) == Split(a, sep) + Split(b, sep)
    decreases |a|
  {
    if |a| == 0 {
      assert a + [sep] + b == [sep] + b;
      assert ([sep] + b)[1..] == b;
    } else {
      var s := a + [sep] + b;
      assert s[0] == a[0];
      assert s[1..] == a[1..] + [sep] + b;
      SplitConcat(a[1..], b, sep);
    }
  }

  /** A string without separators is a single piece. */
  lemma {:induction false} SplitNoSep(a: string, sep: char)
    requires sep !in a
    ensures Split(a, sep) == [a]
    decreases |a|
  {
    if |a| > 0 {
      assert a[1..] == a[|a| - |a[1..]|..];
      SplitNoSep(a[1..], sep);
      assert [a[0]] + a[1..] == a;
    }
  }

  /** Split inverts JoinWith when no part contains the separator. */
  lemma {:induction false} SplitJoin(parts: seq<string>, sep: char)
    requires |parts| >= 1
    requires forall i :: 0 <= i < |parts| ==> sep !in parts[i]
    ensures Split(JoinWith(parts, sep), sep) == parts
    decreases |parts|
  {
    SplitNoSep(parts[0], sep);
    if |parts| > 1 {
      SplitJoin(parts[1..], sep);
      SplitConcat(parts[0], JoinWith(parts[1..], sep), sep);
      assert [parts[0]] + parts[1..] == parts;
    }
  }

  /** Two consecutive parts, with the separator between them, fit in the
      joined string. */
  lemma {:induction false} JoinWithLength(parts: seq<string>, sep: char, i: nat)
    requires i + 1 < |parts|
    ensures |parts[i]| + 1 + |parts[i + 1]| <= |JoinWith(parts, sep)|
    decreases i
  {
    if i > 0 {
      JoinWithLength(parts[1..], sep, i - 1);
    } else if |parts| > 2 {
      assert JoinWith(parts[1..], sep) == parts[1] + [sep] + JoinWith(parts[2..], sep);
    }
  }

  /** An occurrence inside a middle part is an occurrence in the whole. */
  lemma OccursInMiddle(a: string, b: string, c: string, t: string, i: int)
    requires OccursAt(b, t, i)
    ensures OccursAt(a + b + c, t, |a| + i)
  {
    assert (a + b + c)[|a| + i..|a| + i + |t|] == b[i..i + |t|];
  }

  /** A text that lacks the first character of `t` does not contain `t`. */
  lemma NoOccurrenceWithoutHead(s: string, t: string)
    requires |t| > 0 && t[0] !in s
    ensures forall i :: !OccursAt(s, t, i)
  {
    forall i | 0 <= i && i + |t| <= |s|
      ensures !OccursAt(s, t, i)
    {
      assert s[i..i + |t|][0] == s[i];
    }
  }

  /** A string free of the character `q` that occurs in `a + [q] + b + [q] + c`
      occurs inside `a`, inside `b` or inside `c`. */
  lemma OccursBetweenQuotes(a: string, b: string, c: string, q: char, t: string, i: int)
    requires q !in t && OccursAt(a + [q] + b + [q] + c, t, i)
    ensures OccursAt(a, t, i) || OccursAt(b, t, i - |a| - 1) || OccursAt(c, t, i - |a| - |b| - 2)
  {
    var s := a + [q] + b + [q] + c;
    var n := |t|;
    assert forall j :: i <= j < i + n ==> s[j] == s[i..i + n][j - i] == t[j - i];
    assert s[|a|] == q && s[|a| + |b| + 1] == q;
    assert !(i <= |a| < i + n);
    assert !(i <= |a| + |b| + 1 < i + n);
    if i + n <= |a| {
      assert s[i..i + n] == a[i..i + n];
    } else if i + n <= |a| + |b| + 1 {
      assert s[i..i + n] == b[i - |a| - 1..i - |a| - 1 + n];
    } else {
      assert s[i..i + n] == c[i - |a| - |b| - 2..i - |a| - |b| - 2 + n];
    }
  }

  /** A quote-free string occurs in `a + "\"" + v + "\"" + c`, where `a` lacks it,
      exactly when it occurs in `v` or in `c`. */
  lemma QuotedContains(a: string, v: string, c: string, t: string)
    requires '"' !in t && forall i :: !OccursAt(a, t, i)
    ensures Contains(a + ['"'] + v + ['"'] + c, t) <==> Contains(v, t) || Contains(c, t)
  {
    var s := a + ['"'] + v + ['"'] + c;
    if Contains(s, t) {
      OccursBetweenQuotes(a, v, c, '"', t, Index(s, t));
    }
    if Contains(v, t) {
      OccursInMiddle(a + ['"'], v, ['"'] + c, t, Index(v, t));
      assert a + ['"'] + v + (['"'] + c) == s;
    }
    if Contains(c, t) {
      OccursInMiddle(a + ['"'] + v + ['"'], c, [], t, Index(c, t));
      assert a + ['"'] + v + ['"'] + c + [] == s;
    }
  }

  /** Whatever a suffix contains, the whole string contains. */
  lemma SuffixContains(s: string, suffix: string, t: string)
    requires |suffix| <= |s| && s[|s| - |suffix|..] == suffix && Contains(suffix, t)
    ensures Contains(s, t)
  {
    var off := |s| - |suffix|;
    OccursInMiddle(s[..off], suffix, [], t, Index(suffix, t));
    assert s[..off] + suffix + [] == s;
  }

  /** Whatever a prefix contains, the whole string contains. */
  lemma PrefixContains(s: string, prefix: string, t: string)
    requires HasPrefix(s, prefix) && Contains(prefix, t)
    ensures Contains(s, t)
  {
    OccursInMiddle([], prefix, s[|prefix|..], t, Index(prefix, t));
    assert [] + prefix + s[|prefix|..] == s;
  }

  /** Split yields one more piece than there are separators. */
  lemma {:induction false} SplitCount(s: string, sep: char)
    ensures |Split(s, sep)| == multiset(s)[sep] + 1
    decreases |s|
  {
    if |s| > 0 {
      SplitCount(s[1..], sep);
      CountCons(s, sep);
      assert |Split(s, sep)| == |Split(s[1..], sep)| + (if s[0] == sep then 1 else 0);
    }
  }

  /** Counting a character splits over the first character and the rest. */
  lemma CountCons(s: string, c: char)
    requires |s| > 0
    ensures multiset(s)[c] == multiset(s[1..])[c] + (if s[0] == c then 1 else 0)
  {
    assert s == [s[0]] + s[1..];
    assert multiset(s) == multiset([s[0]]) + multiset(s[1..]);
  }

  /** When `sub` does not reappear after its first character, an occurrence
      just before `rest` is the last one. */
  lemma LastIndexBeforeRest(prefix: string, sub: string, rest: string)
    requires |sub| >= 1 && !Contains((sub + rest)[1..], sub)
    ensures LastIndex(prefix + sub + rest, sub) == |prefix|
  {
    var s := prefix + sub + rest;
    var tail := (sub + rest)[1..];
    assert s[|prefix|..|prefix| + |sub|] == sub;
    assert OccursAt(s, sub, |prefix|);
    assert s[|prefix| + 1..] == tail;
    forall j | |prefix| < j
      ensures !OccursAt(s, sub, j)
    {
      if j + |sub| <= |s| {
        var m := j - |prefix| - 1;
        assert tail[m..m + |sub|] == s[j..j + |sub|];
        assert !OccursAt(tail, sub, m);
      }
    }
  }

  /** The text from the last occurrence of `sub` on holds no later occurrence. */
  lemma AfterLastIndex(s: string, sub: string)
    requires |sub| >= 1 && Contains(s, sub)
    ensures var k := LastIndex(s, sub);
      && s[k..] == sub + s[k + |sub|..]
      && !Contains(s[k + 1..], sub)
  {
    var k := LastIndex(s, sub);
    assert s[k..] == s[k..k + |sub|] + s[k + |sub|..];
    var tail := s[k + 1..];
    forall j | 0 <= j && j + |sub| <= |tail|
      ensures !OccursAt(tail, sub, j)
    {
      assert tail[j..j + |sub|] == s[k + 1 + j..k + 1 + j + |sub|];
      assert !OccursAt(s, sub, k + 1 + j);
    }
  }

  /** A piece without separators, followed by nothing or by a separator, is
      the first piece. */
  lemma SplitHead(head: string, rest: string, sep: char)
    requires sep !in head && (rest == [] || rest[0] == sep)
    ensures Split(head + rest, sep)[0] == head
  {
    SplitNoSep(head, sep);
    if rest != [] {
      assert rest == [sep] + rest[1..];
      assert head + rest == head + [sep] + rest[1..];
      SplitConcat(head, rest[1..], sep);
    } else {
      assert head + rest == head;
    }
  }

  /** The last occurrence is no earlier than any occurrence. */
  lemma LastIndexAtLeast(s: string, sub: string, i: int)
    requires OccursAt(s, sub, i)
    ensures i <= LastIndex(s, sub) <= |s| - |sub|
  {
  }
}

=== FILE: polidor.dfy ===
/** The retention logic of polidor: recognising a device's data directory
    under a storage root, converting between date directories and instants,
    and deciding whether a date directory is still inside its retention
    period. Data lives in `base/company/device-name/device-number/yyyy/mm/dd`. */
module Polidor {
  import opened Wrappers
  import opened GoStrings
  import opened GoStrconv
  import opened GoFilepath
  import opened Civil
  import opened TimeLayout

  /** A device's storage: the storage root it lives under, the company that
      owns it, and the device's name and number. */
  datatype Directory = Directory(base: string, companyID: GoInt, deviceName: string, deviceNumber: GoInt)

  /** Retention settings, as read from the configuration: company id to named
      settings. The setting used is "retention", a number of days; company 0
      holds the default. A missing entry reads as 0. */
  type RetentionTable = map<GoInt, map<string, GoInt>>

  const RetentionKey: string := "retention"
  const DefaultCompany: GoInt := 0

  /** The ordinary errors BuildDirectory returns to its caller. */
  datatype BuildError =
    | UnableToMatchStorage(storage: string, path: string)
    | UnableToFindDate(path: string)

  /** What BuildDirectory does with a path: a directory, an ordinary error, or
      a company id or device number that is not an integer, which ends the
      program through Check. */
  datatype BuildOutcome =
    | Built(dir: Directory)
    | Failed(error: BuildError)
    | Fatal(numError: NumError)

  /** The text after the first occurrence of `storage` in `path`. */
  function TailAfter(storage: string, path: string): string
    requires Contains(path, storage)
  {
    path[Index(path, storage) + |storage|..]
  }

  function SlashCount(s: string): nat {
    multiset(s)['/']
  }

  /** The part of a path that StripStart removes: device name and number,
      joined and cleaned, followed by a separator. */
  function StripPath(d: Directory): string {
    Join([d.deviceName, Itoa(d.deviceNumber), "/"]) + "/"
  }

  /** StripStart slices `path` from just after the last occurrence of the
      strip path; when there is none it slices from one character before the
      strip path's length, which must not pass the end of `path`. */
  predicate StripInRange(d: Directory, path: string) {
    Contains(path, StripPath(d)) || |StripPath(d)| - 1 <= |path|
  }

  /** Builds the directory a path under `storage` belongs to: after the first
      occurrence of `storage` come a separator, the company id, the device
      name and the device number. */
  function BuildDirectory(storage: string, path: string): (r: BuildOutcome)
    ensures r.Failed? && r.error.UnableToMatchStorage? <==> !Contains(path, storage)
    ensures r.Failed? && r.error.UnableToFindDate?
        <==> Contains(path, storage) && SlashCount(TailAfter(storage, path)) < 3
    ensures r.Failed? && r.error.UnableToMatchStorage? ==> r.error == UnableToMatchStorage(storage, path)
    ensures r.Failed? && r.error.UnableToFindDate? ==> r.error == UnableToFindDate(path)
    ensures r.Fatal? ==> Atoi(r.numError.input).Failure?
    ensures r.Built? ==> r.dir.base == storage && '/' !in r.dir.deviceName && StripInRange(r.dir, path)
    ensures Contains(path, storage) && |Split(TailAfter(storage, path), '/')| >= 4 ==>
      var pieces := Split(TailAfter(storage, path), '/');
      && (r.Fatal? <==> Atoi(pieces[1]).Failure? || Atoi(pieces[3]).Failure?)
      && (r.Fatal? ==> r.numError == NumError(if Atoi(pieces[1]).Failure? then pieces[1] else pieces[3]))
      && (r.Built? ==> Atoi(pieces[1]).Success? && Atoi(pieces[3]).Success?
                       && r.dir == Directory(storage, Atoi(pieces[1]).value, pieces[2], Atoi(pieces[3]).value))
  {
    if !Contains(path, storage) then Failed(UnableToMatchStorage(storage, path))
    else
      var tail := TailAfter(storage, path);
      var splits := Split(tail, '/');
      SplitCount(tail, '/');
      if |splits| < 4 then Failed(UnableToFindDate(path))
      else BuildFromSplits(storage, path, splits)
  }

  /** The second half of BuildDirectory: reads the company id and the device
      number from the elements after `storage`; a number that does not parse
      is fatal. */
  function BuildFromSplits(storage: string, path: string, splits: seq<string>): (r: BuildOutcome)
    requires |splits| >= 4 && |JoinWith(splits, '/')| <= |path|
    requires forall i :: 0 <= i < |splits| ==> '/' !in splits[i]
    ensures !r.Failed?
    ensures r.Fatal? <==> Atoi(splits[1]).Failure? || Atoi(splits[3]).Failure?
    ensures r.Fatal? ==> r.numError == NumError(if Atoi(splits[1]).Failure? then splits[1] else splits[3])
    ensures r.Built? ==>
      && Atoi(splits[1]).Success? && Atoi(splits[3]).Success?
      && r.dir == Directory(storage, Atoi(splits[1]).value, splits[2], Atoi(splits[3]).value)
    ensures r.Built? ==> StripInRange(r.dir, path)
  {
    match Atoi(splits[1]) {
      case Failure(e) => Fatal(e)
      case Success(companyID) =>
        match Atoi(splits[3]) {
          case Failure(e) => Fatal(e)
          case Success(deviceNumber) =>
            var d := Directory(storage, companyID, splits[2], deviceNumber);
            BuiltInRange(d, path, splits);
            Built(d)
        }
    }
  }

  /** The strip path of a built directory never reaches past the path it was
      built from, so StripStart cannot slice out of range. */
  lemma BuiltInRange(d: Directory, path: string, splits: seq<string>)
    requires |splits| >= 4 && |JoinWith(splits, '/')| <= |path|
    requires forall i :: 0 <= i < |splits| ==> '/' !in splits[i]
    requires d.deviceName == splits[2] && Atoi(splits[3]) == Success(d.deviceNumber)
    ensures StripInRange(d, path)
  {
    ItoaIsCleanName(d.deviceNumber);
    ItoaAtoiLength(splits[3]);
    JoinNameNumberSlash(d.deviceName, Itoa(d.deviceNumber));
    JoinWithLength(splits, '/', 2);
  }

  /** Directory.StripStart: the text after the last occurrence of the strip
      path, normally the date part of a data path. */
  function StripStart(d: Directory, path: string): (r: string)
    requires StripInRange(d, path)
    ensures HasSuffix(path, r)
    ensures Contains(path, StripPath(d))
        ==> HasSuffix(path, StripPath(d) + r) && !Contains((StripPath(d) + r)[1..], StripPath(d))
    ensures !Contains(path, StripPath(d)) ==> |r| == |path| + 1 - |StripPath(d)|
  {
    var sp := StripPath(d);
    if Contains(path, sp) then
      var k := LastIndex(path, sp);
      AfterLastIndex(path, sp);
      assert (sp + path[k + |sp|..])[1..] == path[k + 1..];
      path[k + |sp|..]
    else
      path[|sp| - 1..]
  }

  /** Directory.ToEpoch: midnight UTC of the date the stripped path spells, or
      the error time.Parse reports for it. */
  function ToEpoch(d: Directory, path: string): (r: Result<int, ParseError>)
    requires StripInRange(d, path)
    ensures r.Success? ==> r.value % NanosPerDay == 0
    ensures r.Success? ==> LayoutDate(CivilOf(r.value)) && FormatDate(CivilOf(r.value)) == StripStart(d, path)
    ensures r.Failure? <==> ParseDate(StripStart(d, path)).Failure?
    ensures r.Failure? ==> r.error == ParseDate(StripStart(d, path)).error
    ensures r.Failure? ==> r.error.value == StripStart(d, path)
    ensures r.Failure? && r.error.kind.ExtraText? ==> HasSuffix(r.error.value, r.error.kind.rest)
  {
    match ParseDate(StripStart(d, path)) {
      case Success(date) =>
        CivilOfDayStart(date);
        Success(DayStart(date))
      case Failure(e) => Failure(e)
    }
  }

  /** ToEpoch succeeds exactly when the stripped path is some date written in
      the layout. */
  lemma ToEpochSucceeds(d: Directory, path: string)
    requires StripInRange(d, path)
    ensures ToEpoch(d, path).Success?
        <==> exists date :: LayoutDate(date) && FormatDate(date) == StripStart(d, path)
  {
    if exists date :: LayoutDate(date) && FormatDate(date) == StripStart(d, path) {
      var date :| LayoutDate(date) && FormatDate(date) == StripStart(d, path);
      ParseFormat(date);
    }
  }

  const TwoTo64: int := 0x1_0000_0000_0000_0000
  const NanosPerHour: int := 3_600_000_000_000

  /** Two's complement wrap-around of a Go int or time.Duration (64 bits). */
  function Wrap64(x: int): (r: GoInt)
    ensures (r - x) % TwoTo64 == 0
    ensures MinInt64 <= x <= MaxInt64 ==> r == x
  {
    (x - MinInt64) % TwoTo64 + MinInt64
  }

  /** time.Duration(period*24) * time.Hour, with both products wrapping. */
  function RetentionDuration(period: GoInt): GoInt {
    Wrap64(Wrap64(period * 24) * NanosPerHour)
  }

  /** The largest retention period, in days, whose duration fits in 64 bits. */
  const MaxPeriodDays: int := 106_751

  /** Up to MaxPeriodDays days either way the duration is exact. */
  lemma RetentionDurationExact(period: GoInt)
    ensures -MaxPeriodDays <= period <= MaxPeriodDays ==> RetentionDuration(period) == period * NanosPerDay
  {
    if -MaxPeriodDays <= period <= MaxPeriodDays {
      assert Wrap64(period * 24) == period * 24;
      assert -MaxPeriodDays * NanosPerDay <= period * 24 * NanosPerHour <= MaxPeriodDays * NanosPerDay;
    }
  }

  /** One day more and the duration wraps to a large negative value, so a
      directory with that retention period counts as long expired. */
  lemma RetentionDurationWraps()
    ensures RetentionDuration(MaxPeriodDays + 1) < 0
  {
  }

  /** Directory.Retain: whether, at instant `now`, the date directory `path`
      is still inside a retention period of `period` days. The date
      directory's midnight plus the period must not be before `now`. */
  function Retain(d: Directory, now: int, path: string, period: GoInt): (r: Result<bool, ParseError>)
    requires StripInRange(d, path)
    ensures r.Failure? ==> r.error.value == StripStart(d, path)
    ensures r.Failure? && r.error.kind.ExtraText? ==> HasSuffix(r.error.value, r.error.kind.rest)
    ensures r.Success? <==> ToEpoch(d, path).Success?
    ensures r.Failure? ==> r.error == ToEpoch(d, path).error
    ensures r.Success? && -MaxPeriodDays <= period <= MaxPeriodDays
        ==> (r.value <==> now <= ToEpoch(d, path).value + period * NanosPerDay)
  {
    match ToEpoch(d, path) {
      case Failure(e) => Failure(e)
      case Success(dateDir) =>
        RetentionDurationExact(period);
        Success(!(dateDir + RetentionDuration(period) < now))
    }
  }

  /** For a path whose stripped part is a date, Retain keeps it until the end
      of the period counted from that date's midnight. */
  lemma RetainOfDate(d: Directory, now: int, path: string, period: GoInt, date: Date)
    requires StripInRange(d, path) && LayoutDate(date) && StripStart(d, path) == FormatDate(date)
    requires -MaxPeriodDays <= period <= MaxPeriodDays
    ensures Retain(d, now, path, period) == Success(now <= DayStart(date) + period * NanosPerDay)
  {
    ParseFormat(date);
  }

  /** Retain reads only the device's name and number: the base and the
      company id of the directory play no part, so a directory built with a
      different storage root decides the same. */
  lemma RetainIgnoresBaseAndCompany(d: Directory, e: Directory, now: int, path: string, period: GoInt)
    requires d.deviceName == e.deviceName && d.deviceNumber == e.deviceNumber && StripInRange(d, path)
    ensures StripInRange(e, path) && Retain(d, now, path, period) == Retain(e, now, path, period)
  {
    assert StripPath(d) == StripPath(e);
    assert StripStart(d, path) == StripStart(e, path);
    assert ToEpoch(d, path) == ToEpoch(e, path);
  }

  /** The number of days a setting map gives, missing entries reading 0. */
  function Setting(table: RetentionTable, companyID: GoInt): GoInt {
    if companyID in table && RetentionKey in table[companyID] then table[companyID][RetentionKey] else 0
  }

  /** FindRetentionPeriod: the company's own retention if it has a non-zero
      one, otherwise the default company's. */
  function FindRetentionPeriod(table: RetentionTable, companyID: GoInt): (r: GoInt)
    ensures companyID in table && RetentionKey in table[companyID] && table[companyID][RetentionKey] != 0
        ==> r == table[companyID][RetentionKey]
    ensures !(companyID in table && RetentionKey in table[companyID] && table[companyID][RetentionKey] != 0)
        ==> r == (if DefaultCompany in table && RetentionKey in table[DefaultCompany]
                  then table[DefaultCompany][RetentionKey] else 0)
  {
    var defaultRetention := Setting(table, DefaultCompany);
    var retention := Setting(table, companyID);
    if retention == 0 then defaultRetention else retention
  }

  /** A company whose setting is zero or missing gets the default company's
      period, and an explicit zero reads like no entry at all. */
  lemma ZeroSettingFallsBack(table: RetentionTable, companyID: GoInt)
    ensures !(companyID in table && RetentionKey in table[companyID] && table[companyID][RetentionKey] != 0)
        ==> FindRetentionPeriod(table, companyID) == FindRetentionPeriod(table, DefaultCompany)
    ensures companyID != DefaultCompany ==>
      FindRetentionPeriod(table[companyID := map[RetentionKey := 0]], companyID)
        == FindRetentionPeriod(table - {companyID}, companyID)
  {
  }

  /** Directory.ToPath: the date directory holding instant `t`. */
  function ToPath(d: Directory, t: int): string {
    Join([d.base, Itoa(d.companyID), d.deviceName, Itoa(d.deviceNumber), FormatDate(CivilOf(t))])
  }

  /** A directory whose base is a clean path and whose name is a plain path
      element. */
  predicate WellFormed(d: Directory) {
    IsCleanPath(d.base) && IsCleanName(d.deviceName)
  }

  /** Instants whose date has a four-digit year. */
  predicate InLayoutRange(t: int) {
    0 <= CivilOf(t).year <= 9999
  }

  lemma ItoaIsCleanName(x: int)
    ensures IsCleanName(Itoa(x))
  {
    ItoaShape(x);
    assert Itoa(x)[0] != '.';
  }

  /** A formatted date is a clean relative path of three elements. */
  lemma FormatDateIsCleanRelPath(date: Date)
    requires LayoutDate(date)
    ensures IsCleanRelPath(FormatDate(date))
  {
    FormatDateShape(date);
    var y, m, dd := AppendInt(date.year, 4), AppendInt(date.month, 2), AppendInt(date.day, 2);
    DigitsAreCleanName(y);
    DigitsAreCleanName(m);
    DigitsAreCleanName(dd);
    NameIsCleanRelPath(y);
    NameIsCleanRelPath(m);
    NameIsCleanRelPath(dd);
    ConcatCleanPaths(m, dd);
    ConcatCleanPaths(y, m + "/" + dd);
    assert y + "/" + m + "/" + dd == y + "/" + (m + "/" + dd);
  }

  lemma DigitsAreCleanName(s: string)
    requires |s| > 0 && AllDigits(s)
    ensures IsCleanName(s)
  {
    assert s[0] != '.' && s[0] != '/';
  }

  /** The strip path of a well-formed directory is its name and number
      followed by a separator. */
  lemma StripPathOfWellFormed(d: Directory)
    requires IsCleanName(d.deviceName)
    ensures StripPath(d) == d.deviceName + "/" + Itoa(d.deviceNumber) + "/"
  {
    ItoaIsCleanName(d.deviceNumber);
    JoinNameNumberSlash(d.deviceName, Itoa(d.deviceNumber));
  }

  /** Joining the directory's fields with a clean relative date part lays
      them out one after the other, and the result is a clean path. */
  lemma JoinLayout(d: Directory, date: string)
    requires WellFormed(d) && IsCleanRelPath(date)
    ensures var elems := [d.base, Itoa(d.companyID), d.deviceName, Itoa(d.deviceNumber), date];
      && Join(elems) == d.base + "/" + Itoa(d.companyID) + "/" + d.deviceName + "/" + Itoa(d.deviceNumber) + "/" + date
      && IsCleanPath(Join(elems))
  {
    var cid, num := Itoa(d.companyID), Itoa(d.deviceNumber);
    ItoaIsCleanName(d.companyID);
    ItoaIsCleanName(d.deviceNumber);
    NameIsCleanRelPath(cid);
    NameIsCleanRelPath(d.deviceName);
    NameIsCleanRelPath(num);
    var elems := [d.base, cid, d.deviceName, num, date];
    JoinCleanPaths(elems);
    JoinFive(d.base, cid, d.deviceName, num, date);
  }

  /** ToPath lays out base, company id, strip path and date one after the
      other, and the result is a clean path. */
  lemma ToPathLayout(d: Directory, t: int)
    requires WellFormed(d) && InLayoutRange(t)
    ensures ToPath(d, t) == d.base + "/" + Itoa(d.companyID) + "/" + StripPath(d) + FormatDate(CivilOf(t))
    ensures StripPath(d) == d.deviceName + "/" + Itoa(d.deviceNumber) + "/"
    ensures IsCleanPath(ToPath(d, t))
  {
    var date := FormatDate(CivilOf(t));
    FormatDateIsCleanRelPath(CivilOf(t));
    JoinLayout(d, date);
    StripPathOfWellFormed(d);
    ConcatLayout(d.base, Itoa(d.companyID), d.deviceName, Itoa(d.deviceNumber), date);
  }

  lemma ConcatLayout(base: string, cid: string, name: string, num: string, date: string)
    ensures base + "/" + cid + "/" + name + "/" + num + "/" + date
         == base + "/" + cid + "/" + (name + "/" + num + "/") + date
  {
  }

  lemma JoinFive(a: string, b: string, c: string, d: string, e: string)
    ensures JoinWith([a, b, c, d, e], '/') == a + "/" + b + "/" + c + "/" + d + "/" + e
  {
    assert [d, e][1..] == [e];
    assert JoinWith([e], '/') == e;
    var j2 := JoinWith([d, e], '/');
    assert j2 == d + "/" + e;
    assert [c, d, e][1..] == [d, e];
    var j3 := JoinWith([c, d, e], '/');
    assert j3 == c + "/" + j2;
    assert [b, c, d, e][1..] == [c, d, e];
    var j4 := JoinWith([b, c, d, e], '/');
    assert j4 == b + "/" + j3;
    assert [a, b, c, d, e][1..] == [b, c, d, e];
    assert JoinWith([a, b, c, d, e], '/') == a + "/" + j4;
  }

  /** The pieces of a tail laid out as company id, name and number. */
  lemma SplitLayout(cid: string, name: string, num: string, rest: string)
    requires '/' !in cid && '/' !in name && '/' !in num && (rest == "" || rest[0] == '/')
    ensures var splits := Split("/" + cid + "/" + name + "/" + num + rest, '/');
      |splits| >= 4 && splits[1] == cid && splits[2] == name && splits[3] == num
  {
    var a := num + rest;
    SplitHead(num, rest, '/');
    var b := name + ['/'] + a;
    SplitNoSep(name, '/');
    SplitConcat(name, a, '/');
    var c := cid + ['/'] + b;
    SplitNoSep(cid, '/');
    SplitConcat(cid, b, '/');
    SplitConcat("", c, '/');
    assert Split("", '/') == [""];
    SlashLayout(cid, name, num, rest);
  }

  lemma SlashLayout(cid: string, name: string, num: string, rest: string)
    ensures "/" + cid + "/" + name + "/" + num + rest == "" + ['/'] + (cid + ['/'] + (name + ['/'] + (num + rest)))
  {
  }

  /** BuildDirectory recognises a path laid out as base, company id, device
      name and device number, whatever follows from the next separator on. */
  lemma BuildDirectoryOfLayout(d: Directory, rest: string)
    requires '/' !in d.deviceName && (rest == "" || rest[0] == '/')
    ensures BuildDirectory(d.base, d.base + "/" + Itoa(d.companyID) + "/" + d.deviceName + "/" + Itoa(d.deviceNumber) + rest)
         == Built(d)
  {
    var cid, num := Itoa(d.companyID), Itoa(d.deviceNumber);
    var tail := "/" + cid + "/" + d.deviceName + "/" + num + rest;
    var path := d.base + tail;
    assert path == d.base + "/" + cid + "/" + d.deviceName + "/" + num + rest;
    assert OccursAt(path, d.base, 0) by {
      assert path[..|d.base|] == d.base;
    }
    assert Index(path, d.base) == 0;
    assert path[|d.base|..] == tail;
    ItoaShape(d.companyID);
    ItoaShape(d.deviceNumber);
    SplitLayout(cid, d.deviceName, num, rest);
    AtoiItoa(d.companyID);
    AtoiItoa(d.deviceNumber);
  }

  /** BuildDirectory recovers the directory from any path ToPath produces for an
      instant with a four-digit year. */
  lemma BuildDirectoryToPath(d: Directory, t: int)
    requires WellFormed(d) && InLayoutRange(t)
    ensures BuildDirectory(d.base, ToPath(d, t)) == Built(d)
  {
    ToPathLayout(d, t);
    var date := FormatDate(CivilOf(t));
    var cid, num := Itoa(d.companyID), Itoa(d.deviceNumber);
    RegroupLayout(d.base, cid, d.deviceName, num, date);
    BuildDirectoryOfLayout(d, "/" + date);
  }

  lemma RegroupLayout(base: string, cid: string, name: string, num: string, date: string)
    ensures base + "/" + cid + "/" + (name + "/" + num + "/") + date
         == base + "/" + cid + "/" + name + "/" + num + ("/" + date)
  {
  }

  /** The strip path occurs only once in the part of a data path it starts:
      it does not turn up again inside itself followed by the date. */
  predicate StripUnambiguous(d: Directory, dateText: string) {
    !Contains((StripPath(d) + dateText)[1..], StripPath(d))
  }

  /** StripStart returns whatever follows the strip path, when the strip path
      does not occur again later. */
  lemma StripStartAfter(d: Directory, prefix: string, rest: string)
    requires StripUnambiguous(d, rest)
    ensures StripInRange(d, prefix + StripPath(d) + rest)
    ensures StripStart(d, prefix + StripPath(d) + rest) == rest
  {
    var sp := StripPath(d);
    var path := prefix + sp + rest;
    LastIndexBeforeRest(prefix, sp, rest);
    assert Contains(path, sp);
    assert path[|prefix| + |sp|..] == rest;
  }

  /** ToEpoch of a path ToPath produced is midnight of the instant's date,
      provided the strip path does not recur inside the date part. */
  lemma ToEpochToPath(d: Directory, t: int)
    requires WellFormed(d) && InLayoutRange(t) && StripUnambiguous(d, FormatDate(CivilOf(t)))
    ensures StripInRange(d, ToPath(d, t))
    ensures ToEpoch(d, ToPath(d, t)) == Success(t - t % NanosPerDay)
  {
    StripStartOfToPath(d, t);
    ToEpochOfDate(d, ToPath(d, t), CivilOf(t));
    var m := DayStart(CivilOf(t));
    assert m == t - t % NanosPerDay by {
      DayStartOfCivil(t);
    }
  }

  /** ToEpoch of a path whose stripped part spells a date is that date's
      midnight. */
  lemma ToEpochOfDate(d: Directory, path: string, date: Date)
    requires StripInRange(d, path) && LayoutDate(date) && StripStart(d, path) == FormatDate(date)
    ensures ToEpoch(d, path) == Success(DayStart(date))
  {
    ParseFormat(date);
  }

  /** StripStart of a path ToPath produced is its date part, provided the
      strip path does not recur inside the date part. */
  lemma StripStartOfToPath(d: Directory, t: int)
    requires WellFormed(d) && InLayoutRange(t) && StripUnambiguous(d, FormatDate(CivilOf(t)))
    ensures StripInRange(d, ToPath(d, t))
    ensures StripStart(d, ToPath(d, t)) == FormatDate(CivilOf(t))
  {
    ToPathLayout(d, t);
    var prefix := d.base + "/" + Itoa(d.companyID) + "/";
    assert ToPath(d, t) == prefix + StripPath(d) + FormatDate(CivilOf(t));
    StripStartAfter(d, prefix, FormatDate(CivilOf(t)));
  }

  /** ToPath of the instant ToEpoch reads from a data path gives the path
      back. */
  lemma ToPathToEpoch(d: Directory, path: string)
    requires WellFormed(d) && StripInRange(d, path) && ToEpoch(d, path).Success?
    requires path == d.base + "/" + Itoa(d.companyID) + "/" + StripPath(d) + StripStart(d, path)
    ensures ToPath(d, ToEpoch(d, path).value) == path
  {
    var t := ToEpoch(d, path).value;
    ToPathLayout(d, t);
  }

  /** A formatted date has ten characters. */
  lemma FormatDateLength(date: Date)
    requires LayoutDate(date)
    ensures |FormatDate(date)| == 10
  {
    FormatDateShape(date);
  }

  lemma ItoaOneDigit(x: int)
    requires 0 <= x < 10
    ensures Itoa(x) == [DigitChar(x)]
  {
  }

  /** Itoa of a four-digit number, digit by digit. */
  lemma ItoaFourDigits(x: int)
    requires 1000 <= x < 10000
    ensures Itoa(x) == [DigitChar(x / 1000), DigitChar(x / 100 % 10), DigitChar(x / 10 % 10), DigitChar(x % 10)]
  {
    assert Digits(x / 1000) == [DigitChar(x / 1000)];
    assert Digits(x / 100) == Digits(x / 1000) + [DigitChar(x / 100 % 10)];
    assert Digits(x / 10) == Digits(x / 100) + [DigitChar(x / 10 % 10)];
    assert Digits(x) == Digits(x / 10) + [DigitChar(x % 10)];
  }

  lemma DataIsClean(base: string)
    requires base == "/data"
    ensures IsCleanPath(base)
  {
    RootedNamesClean("data", "x");
  }

  lemma AliasedDate()
    ensures LayoutDate(Date(2016, 8, 11)) && FormatDate(Date(2016, 8, 11)) == "2016/08/11"
  {
  }

  /** The directory and date of the aliasing example, laid out by ToPath. */
  lemma AliasedPath(d: Directory, t: int)
    requires d == Directory("/data", 1, "16", 2016) && CivilOf(t) == Date(2016, 8, 11)
    ensures ToPath(d, t) == "/data/1/16/2016/2016/08/11"
    ensures StripPath(d) == "16/2016/"
  {
    AliasedDate();
    AliasedNumbers(d.companyID, d.deviceNumber);
    AliasedWellFormed(d);
    ToPathLayout(d, t);
    AliasedStrip(d.deviceName, Itoa(d.deviceNumber), StripPath(d));
    AliasedConcat(d.base, Itoa(d.companyID), StripPath(d), FormatDate(CivilOf(t)), ToPath(d, t));
  }

  lemma AliasedOccurrence(path: string, sp: string)
    requires path == "/data/1/16/2016/2016/08/11" && sp == "16/2016/"
    ensures |path| == 26 && |sp| == 8 && OccursAt(path, sp, 13)
  {
    assert path[13..21] == sp;
  }

  lemma AliasedStrip(name: string, num: string, sp: string)
    requires name == "16" && num == "2016" && sp == name + "/" + num + "/"
    ensures sp == "16/2016/"
  {
  }

  lemma AliasedNumbers(companyID: int, deviceNumber: int)
    requires companyID == 1 && deviceNumber == 2016
    ensures Itoa(companyID) == "1" && Itoa(deviceNumber) == "2016"
  {
    ItoaOneDigit(companyID);
    ItoaFourDigits(deviceNumber);
    assert DigitChar(2) == '2' && DigitChar(0) == '0' && DigitChar(1) == '1' && DigitChar(6) == '6';
  }

  lemma AliasedWellFormed(d: Directory)
    requires d == Directory("/data", 1, "16", 2016)
    ensures WellFormed(d)
  {
    DataIsClean(d.base);
    assert d.deviceName[0] == '1';
  }

  lemma AliasedConcat(base: string, cid: string, sp: string, date: string, path: string)
    requires base == "/data" && cid == "1" && sp == "16/2016/" && date == "2016/08/11"
    requires path == base + "/" + cid + "/" + sp + date
    ensures path == "/data/1/16/2016/2016/08/11"
  {
  }

  /** The round trip needs StripUnambiguous: for device "16" number 2016 the
      strip path "16/2016/" occurs a second time in a 2016 date directory,
      StripStart cuts after that second occurrence, and ToEpoch fails on
      what is left. */
  lemma ToEpochToPathAliased(d: Directory, t: int)
    requires d == Directory("/data", 1, "16", 2016) && CivilOf(t) == Date(2016, 8, 11)
    ensures ToPath(d, t) == "/data/1/16/2016/2016/08/11"
    ensures StripInRange(d, ToPath(d, t))
    ensures ToEpoch(d, ToPath(d, t)).Failure?
  {
    AliasedPath(d, t);
    AliasedOccurrence(ToPath(d, t), StripPath(d));
    ToEpochShortTail(d, ToPath(d, t), 13);
  }

  /** When the strip path occurs fewer than ten characters before the end,
      what StripStart leaves is too short to be a date. */
  lemma ToEpochShortTail(d: Directory, path: string, i: int)
    requires OccursAt(path, StripPath(d), i) && |path| - i - |StripPath(d)| < 10
    ensures StripInRange(d, path) && ToEpoch(d, path).Failure?
  {
    LastIndexAtLeast(path, StripPath(d), i);
    assert |StripStart(d, path)| < 10;
    if ToEpoch(d, path).Success? {
      FormatDateLength(CivilOf(ToEpoch(d, path).value));
    }
  }

  lemma ItoaOf2466(n: int)
    requires n == 2466
    ensures Itoa(n) == "2466"
  {
    ItoaFourDigits(n);
    assert DigitChar(2) == '2' && DigitChar(4) == '4' && DigitChar(6) == '6';
  }

  lemma ItoaOf2467(n: int)
    requires n == 2467
    ensures Itoa(n) == "2467"
  {
    ItoaFourDigits(n);
    assert DigitChar(2) == '2' && DigitChar(4) == '4' && DigitChar(6) == '6' && DigitChar(7) == '7';
  }

  /** StripStart of a data path whose strip path is spelled out and does not
      recur. */
  lemma StripStartSpelled(d: Directory, prefix: string, sp: string, date: string, path: string)
    requires IsCleanName(d.deviceName) && sp == d.deviceName + "/" + Itoa(d.deviceNumber) + "/"
    requires |sp| > 0 && sp[0] !in (sp + date)[1..] && path == prefix + sp + date
    ensures StripInRange(d, path) && StripStart(d, path) == date
  {
    StripPathOfWellFormed(d);
    NoOccurrenceWithoutHead((sp + date)[1..], sp);
    StripStartAfter(d, prefix, date);
  }

  /** The first character of `sp` does not come back later in `sp + date`. */
  lemma HeadNotRepeated(sp: string, date: string)
    requires |sp| > 0
    requires forall i :: 1 <= i < |sp| ==> sp[i] != sp[0]
    requires forall i :: 0 <= i < |date| ==> date[i] != sp[0]
    ensures sp[0] !in (sp + date)[1..]
  {
    var t := (sp + date)[1..];
    forall i | 0 <= i < |t|
      ensures t[i] != sp[0]
    {
      if i + 1 < |sp| {
        assert t[i] == sp[i + 1];
      } else {
        assert t[i] == date[i + 1 - |sp|];
      }
    }
  }

  lemma ReadnewsName(d: Directory, sp: string)
    requires d == Directory("/data/fb", 1289, "j1_readnews_com", 2466) && sp == "j1_readnews_com/2466/"
    ensures IsCleanName(d.deviceName) && sp == d.deviceName + "/" + Itoa(d.deviceNumber) + "/"
  {
    ItoaOf2466(d.deviceNumber);
    assert d.deviceName[0] != '.';
  }

  lemma ReadnewsLayout(sp: string, date: string, path: string)
    requires sp == "j1_readnews_com/2466/" && date == "2015/08/11" && path == "/data/fb/1289/j1_readnews_com/2466/2015/08/11"
    ensures |sp| > 0 && sp[0] !in (sp + date)[1..] && path == "/data/fb/1289/" + sp + date
  {
    ReadnewsHead(sp, date);
  }

  lemma ReadnewsHead(sp: string, date: string)
    requires sp == "j1_readnews_com/2466/" && date == "2015/08/11"
    ensures |sp| > 0 && sp[0] !in (sp + date)[1..]
  {
    HeadNotRepeated(sp, date);
  }

  /** The first directory of the retention test table. */
  lemma ReadnewsStrip(d: Directory, path: string)
    requires d == Directory("/data/fb", 1289, "j1_readnews_com", 2466)
    requires path == "/data/fb/1289/j1_readnews_com/2466/2015/08/11"
    ensures StripInRange(d, path) && StripStart(d, path) == "2015/08/11"
  {
    var sp, date := "j1_readnews_com/2466/", "2015/08/11";
    ReadnewsName(d, sp);
    ReadnewsLayout(sp, date, path);
    StripStartSpelled(d, "/data/fb/1289/", sp, date, path);
  }

  lemma GeneratorName(d: Directory, sp: string)
    requires d == Directory("/var/tmp", 123, "j2_readnews_com", 2467) && sp == "j2_readnews_com/2467/"
    ensures IsCleanName(d.deviceName) && sp == d.deviceName + "/" + Itoa(d.deviceNumber) + "/"
  {
    ItoaOf2467(d.deviceNumber);
    assert d.deviceName[0] != '.';
  }

  lemma GeneratorLayout(sp: string, date: string, path: string)
    requires sp == "j2_readnews_com/2467/" && date == "2016/07/15" && path == "/var/tmp/generator/123/j2_readnews_com/2467/2016/07/15"
    ensures |sp| > 0 && sp[0] !in (sp + date)[1..] && path == "/var/tmp/generator/123/" + sp + date
  {
    GeneratorHead(sp, date);
  }

  lemma GeneratorHead(sp: string, date: string)
    requires sp == "j2_readnews_com/2467/" && date == "2016/07/15"
    ensures |sp| > 0 && sp[0] !in (sp + date)[1..]
  {
    HeadNotRepeated(sp, date);
  }

  /** The second directory of the retention test table, whose path has an
      extra level under the base. */
  lemma GeneratorStrip(d: Directory, path: string)
    requires d == Directory("/var/tmp", 123, "j2_readnews_com", 2467)
    requires path == "/var/tmp/generator/123/j2_readnews_com/2467/2016/07/15"
    ensures StripInRange(d, path) && StripStart(d, path) == "2016/07/15"
  {
    var sp, date := "j2_readnews_com/2467/", "2016/07/15";
    GeneratorName(d, sp);
    GeneratorLayout(sp, date, path);
    StripStartSpelled(d, "/var/tmp/generator/123/", sp, date, path);
  }

  lemma TableDates()
    ensures LayoutDate(Date(2015, 8, 11)) && FormatDate(Date(2015, 8, 11)) == "2015/08/11"
    ensures LayoutDate(Date(2016, 7, 15)) && FormatDate(Date(2016, 7, 15)) == "2016/07/15"
    ensures DayStart(Date(2015, 8, 10)) == DayStart(Date(2015, 8, 11)) - NanosPerDay
    ensures DayStart(Date(2015, 8, 12)) == DayStart(Date(2015, 8, 11)) + NanosPerDay
    ensures DayStart(Date(2015, 8, 13)) == DayStart(Date(2015, 8, 11)) + 2 * NanosPerDay
    ensures DayStart(Date(2016, 8, 15)) == DayStart(Date(2016, 7, 15)) + 31 * NanosPerDay
  {
  }

  /** Retain on the first directory of the retention test table. */
  lemma RetainReadnews(d: Directory, path: string, now: int, period: GoInt)
    requires d == Directory("/data/fb", 1289, "j1_readnews_com", 2466)
    requires path == "/data/fb/1289/j1_readnews_com/2466/2015/08/11"
    requires -MaxPeriodDays <= period <= MaxPeriodDays
    ensures StripInRange(d, path)
    ensures Retain(d, now, path, period) == Success(now <= DayStart(Date(2015, 8, 11)) + period * NanosPerDay)
  {
    ReadnewsStrip(d, path);
    TableDates();
    RetainOfDate(d, now, path, period, Date(2015, 8, 11));
  }

  /** The examples of the retention test table: a directory for 2015-08-11
      checked at midnight of the days around it with retention periods of 0,
      1 and 2 days. */
  lemma RetainExamples(d: Directory, path: string)
    requires d == Directory("/data/fb", 1289, "j1_readnews_com", 2466)
    requires path == "/data/fb/1289/j1_readnews_com/2466/2015/08/11"
    ensures StripInRange(d, path)
    ensures Retain(d, DayStart(Date(2015, 8, 10)), path, 0) == Success(true)
    ensures Retain(d, DayStart(Date(2015, 8, 10)), path, 1) == Success(true)
    ensures Retain(d, DayStart(Date(2015, 8, 11)), path, 0) == Success(true)
    ensures Retain(d, DayStart(Date(2015, 8, 11)), path, 1) == Success(true)
    ensures Retain(d, DayStart(Date(2015, 8, 12)), path, 0) == Success(false)
    ensures Retain(d, DayStart(Date(2015, 8, 12)), path, 1) == Success(true)
    ensures Retain(d, DayStart(Date(2015, 8, 13)), path, 0) == Success(false)
    ensures Retain(d, DayStart(Date(2015, 8, 13)), path, 1) == Success(false)
    ensures Retain(d, DayStart(Date(2015, 8, 13)), path, 2) == Success(true)
  {
    TableDates();
    RetainReadnews(d, path, DayStart(Date(2015, 8, 10)), 0);
    RetainReadnews(d, path, DayStart(Date(2015, 8, 10)), 1);
    RetainReadnews(d, path, DayStart(Date(2015, 8, 11)), 0);
    RetainReadnews(d, path, DayStart(Date(2015, 8, 11)), 1);
    RetainReadnews(d, path, DayStart(Date(2015, 8, 12)), 0);
    RetainReadnews(d, path, DayStart(Date(2015, 8, 12)), 1);
    RetainReadnews(d, path, DayStart(Date(2015, 8, 13)), 0);
    RetainReadnews(d, path, DayStart(Date(2015, 8, 13)), 1);
    RetainReadnews(d, path, DayStart(Date(2015, 8, 13)), 2);
  }

  /** The last example of the retention test table: a directory for
      2016-07-15 under an extra level below the base, checked on the
      afternoon of 2016-08-15 with 10 days, is past its retention. */
  lemma RetainExampleAfternoon(d: Directory, path: string)
    requires d == Directory("/var/tmp", 123, "j2_readnews_com", 2467)
    requires path == "/var/tmp/generator/123/j2_readnews_com/2467/2016/07/15"
    ensures StripInRange(d, path)
    ensures Retain(d, DayStart(Date(2016, 8, 15)) + (14 * 60 + 39) * 60 * NanosPerSecond, path, 10) == Success(false)
  {
    GeneratorStrip(d, path);
    TableDates();
    RetainOfDate(d, DayStart(Date(2016, 8, 15)) + (14 * 60 + 39) * 60 * NanosPerSecond, path, 10, Date(2016, 7, 15));
  }

  lemma ItoaOf1289(n: int)
    requires n == 1289
    ensures Itoa(n) == "1289"
  {
    ItoaFourDigits(n);
    assert DigitChar(1) == '1' && DigitChar(2) == '2' && DigitChar(8) == '8' && DigitChar(9) == '9';
  }

  lemma DataFbIsClean(base: string)
    requires base == "/data/fb"
    ensures IsCleanPath(base)
  {
    RootedNamesClean("data", "fb");
    assert base == "/" + "data" + "/" + "fb";
  }

  /** The first example of the directory test table: a path below a date
      directory gives the storage's directory. */
  lemma BuildDirectoryExample(storage: string, path: string)
    requires storage == "/data/fb" && path == "/data/fb/1289/j1_readnews_com/2466/2015/08/11/09/18"
    ensures BuildDirectory(storage, path) == Built(Directory("/data/fb", 1289, "j1_readnews_com", 2466))
  {
    var d := Directory(storage, 1289, "j1_readnews_com", 2466);
    ItoaOf1289(d.companyID);
    ItoaOf2466(d.deviceNumber);
    BuildExamplePath(storage, Itoa(d.companyID), d.deviceName, Itoa(d.deviceNumber), path);
    BuildDirectoryOfLayout(d, "/2015/08/11/09/18");
  }

  lemma BuildExamplePath(base: string, cid: string, name: string, num: string, path: string)
    requires base == "/data/fb" && cid == "1289" && name == "j1_readnews_com" && num == "2466"
    requires path == "/data/fb/1289/j1_readnews_com/2466/2015/08/11/09/18"
    ensures path == base + "/" + cid + "/" + name + "/" + num + "/2015/08/11/09/18"
  {
    assert base + "/" + cid == "/data/fb/1289";
    assert "/data/fb/1289" + "/" + name == "/data/fb/1289/j1_readnews_com";
    assert "/data/fb/1289/j1_readnews_com" + "/" + num == "/data/fb/1289/j1_readnews_com/2466";
  }

  /** The second example of the directory test table: a path that stops at
      the device name has no date. */
  lemma BuildDirectoryNoDateExample(storage: string, path: string)
    requires storage == "/var/tmp/generator" && path == "/var/tmp/generator/123/j1_readnews_com"
    ensures BuildDirectory(storage, path) == Failed(UnableToFindDate(path))
  {
    var cid, name := "123", "j1_readnews_com";
    NoDatePath(storage, cid, name, path);
    assert OccursAt(path, storage, 0) by {
      assert path[..|storage|] == storage;
    }
    assert path[|storage|..] == "/" + cid + "/" + name;
    SplitThree(cid, name);
  }

  lemma NoDatePath(storage: string, cid: string, name: string, path: string)
    requires storage == "/var/tmp/generator" && cid == "123" && name == "j1_readnews_com"
    requires path == "/var/tmp/generator/123/j1_readnews_com"
    ensures path == storage + ("/" + cid + "/" + name) && '/' !in cid && '/' !in name
  {
  }

  /** A separator, a name, a separator and a name make three pieces. */
  lemma SplitThree(a: string, b: string)
    requires '/' !in a && '/' !in b
    ensures |Split("/" + a + "/" + b, '/')| == 3
  {
    var s := "/" + a + "/" + b;
    SplitCount(s, '/');
    assert multiset(s) == multiset("/") + multiset(a) + multiset("/") + multiset(b);
    assert multiset(a)['/'] == 0 && multiset(b)['/'] == 0;
  }

  /** The third example of the directory test table: a path outside the
      storage does not match it. */
  lemma BuildDirectoryNoMatchExample(storage: string, path: string)
    requires storage == "/data/fb" && path == "/foo/bar"
    ensures BuildDirectory(storage, path) == Failed(UnableToMatchStorage(storage, path))
  {
    forall j | 0 <= j && j + |storage| <= |path|
      ensures !OccursAt(path, storage, j)
    {
      assert j == 0;
      assert path[j..j + |storage|][1] != storage[1];
    }
  }

  /** The example of the path test table: ToPath puts the instant
      1470873600 seconds after the epoch, 2016-08-11 00:00 UTC, in the
      directory for that date, and ToEpoch reads that instant back. */
  lemma ToPathExample(d: Directory, t: int)
    requires d == Directory("/data/fb", 1289, "j1_readnews_com", 2466)
    requires t == 1470873600 * NanosPerSecond
    ensures ToPath(d, t) == "/data/fb/1289/j1_readnews_com/2466/2016/08/11"
    ensures StripInRange(d, ToPath(d, t)) && ToEpoch(d, ToPath(d, t)) == Success(t)
  {
    var date := Date(2016, 8, 11);
    ExampleInstant(t, date);
    ReadnewsWellFormed(d);
    ToPathLayout(d, t);
    ExampleToPath(d.base, Itoa(d.companyID), StripPath(d), FormatDate(CivilOf(t)), ToPath(d, t));
    ExampleUnambiguous(d, FormatDate(CivilOf(t)));
    ToEpochToPath(d, t);
  }

  lemma ReadnewsWellFormed(d: Directory)
    requires d == Directory("/data/fb", 1289, "j1_readnews_com", 2466)
    ensures WellFormed(d) && Itoa(d.companyID) == "1289"
    ensures StripPath(d) == "j1_readnews_com/2466/"
  {
    DataFbIsClean(d.base);
    ItoaOf1289(d.companyID);
    ReadnewsName(d, "j1_readnews_com/2466/");
    StripPathOfWellFormed(d);
  }

  lemma ExampleInstant(t: int, date: Date)
    requires t == 1470873600 * NanosPerSecond && date == Date(2016, 8, 11)
    ensures CivilOf(t) == date && t % NanosPerDay == 0 && InLayoutRange(t)
    ensures FormatDate(CivilOf(t)) == "2016/08/11"
  {
    ExampleDayNumber(date);
    assert t == 17024 * NanosPerDay;
    CivilOfDayStart(date);
    AliasedDate();
  }

  lemma ExampleDayNumber(date: Date)
    requires date == Date(2016, 8, 11)
    ensures ValidDate(date) && DayNumber(date) == 17024 && DayStart(date) == 17024 * NanosPerDay
  {
  }

  lemma ExampleUnambiguous(d: Directory, date: string)
    requires d == Directory("/data/fb", 1289, "j1_readnews_com", 2466) && date == "2016/08/11"
    ensures StripUnambiguous(d, date)
  {
    ReadnewsWellFormed(d);
    var sp := StripPath(d);
    ExampleDatePart(sp, date);
    NoOccurrenceWithoutHead((sp + date)[1..], sp);
  }

  lemma ExampleDatePart(sp: string, date: string)
    requires sp == "j1_readnews_com/2466/" && date == "2016/08/11"
    ensures |sp| > 0 && sp[0] !in (sp + date)[1..]
  {
  }

  lemma ExampleToPath(base: string, cid: string, sp: string, date: string, path: string)
    requires base == "/data/fb" && cid == "1289" && sp == "j1_readnews_com/2466/" && date == "2016/08/11"
    requires path == base + "/" + cid + "/" + sp + date
    ensures path == "/data/fb/1289/j1_readnews_com/2466/2016/08/11"
  {
  }
}

=== FILE: timelayout.dfy ===
/** Formatting and strict parsing of dates with Go's `time` layout
    "2006/01/02" in UTC (`Time.Format` and `time.Parse` restricted to that
    layout), including the exact kinds of parse error Go reports. */
module TimeLayout {
  import opened Wrappers
  import opened GoStrings
  import opened GoStrconv
  import opened Civil

  /** The layout of date directories: year, month and day, slash-separated. */
  const DateLayout: string := "2006/01/02"

  function Zeros(n: int): string
    decreases n
  {
    if n <= 0 then "" else "0" + Zeros(n - 1)
  }

  /** The time package's appendInt: a minus sign for a negative value, then
      the magnitude in decimal, zero-padded to `width` digits. */
  function AppendInt(x: int, width: nat): string {
    var u := if x < 0 then -x else x;
    (if x < 0 then "-" else "")
      + (if width == 2 && u < 100 then [DigitChar(u / 10), DigitChar(u % 10)]
         else if width == 4 && u < 10000 then
           [DigitChar(u / 1000), DigitChar(u / 100 % 10), DigitChar(u / 10 % 10), DigitChar(u % 10)]
         else Zeros(width - |Digits(u)|) + Digits(u))
  }

  /** Format(DateLayout) of a civil date. */
  function FormatDate(d: Date): string {
    AppendInt(d.year, 4) + "/" + AppendInt(d.month, 2) + "/" + AppendInt(d.day, 2)
  }

  /** The dates the layout can express and parse back: valid, with a
      four-digit year. */
  predicate LayoutDate(d: Date) {
    ValidDate(d) && 0 <= d.year <= 9999
  }

  /** How time.Parse can fail on this layout. `CannotParse` is a mismatch
      between the text and a layout element (too short, a non-digit, a
      missing slash); the other three are checks made after an element was
      read successfully. */
  datatype ParseErrorKind =
    | CannotParse(valueElem: string, layoutElem: string)
    | MonthOutOfRange
    | DayOutOfRange
    | ExtraText(rest: string)

  /** time.ParseError: the kind of failure and the whole text parsed. */
  datatype ParseError = ParseError(kind: ParseErrorKind, value: string)

  /** The quoting of the error text: the text between double quotes. Go's
      quote also puts a backslash before `"` and `\`, and writes every byte
      of a control or non-ASCII character as `\x` and two hex digits. On
      printable ASCII text it only adds backslashes, which neither create
      nor break an occurrence of "cannot parse", so there the two agree on
      the test the cleaner makes. */
  function Quote(s: string): string {
    "\"" + s + "\""
  }

  /** Text of printable ASCII characters only. */
  predicate PrintableAscii(s: string) {
    forall i :: 0 <= i < |s| ==> ' ' <= s[i] <= '~'
  }

  /** ParseError.Error() for this layout. */
  function ErrorText(e: ParseError): string {
    "parsing time " + Quote(e.value)
      + match e.kind
        case CannotParse(elem, layoutElem) =>
          " as " + Quote(DateLayout) + ": cannot parse " + Quote(elem) + " as " + Quote(layoutElem)
        case MonthOutOfRange => ": month out of range"
        case DayOutOfRange => ": day out of range"
        case ExtraText(rest) => ": extra text: " + Quote(rest)
  }

  function Bad(value: string, elem: string, layoutElem: string): Result<Date, ParseError> {
    Failure(ParseError(CannotParse(elem, layoutElem), value))
  }

  /** A two-digit field: both characters decimal digits. */
  predicate TwoDigitsAt(s: string, i: nat) {
    i + 2 <= |s| && IsDigit(s[i]) && IsDigit(s[i + 1])
  }

  function TwoDigitsValue(s: string, i: nat): int
    requires TwoDigitsAt(s, i)
  {
    10 * DigitValue(s[i]) + DigitValue(s[i + 1])
  }

  /** time.Parse("2006/01/02", value) in UTC: four digits for the year, a
      slash, exactly two digits for a month in 1..12, a slash, exactly two
      digits for the day, nothing after, and a day that exists in that month
      of that year, checked in that order. */
  function ParseDate(value: string): (r: Result<Date, ParseError>)
    ensures r.Success? ==> LayoutDate(r.value) && FormatDate(r.value) == value
    ensures r.Failure? ==> r.error.value == value
    ensures r.Failure? && r.error.kind.ExtraText? ==> HasSuffix(value, r.error.kind.rest)
  {
    if |value| < 4 || !IsDigit(value[0]) || !AllDigits(value[..4]) then Bad(value, value, "2006")
    else
      var year := DigitsValue(value[..4]);
      var v1 := value[4..];
      if |v1| == 0 || v1[0] != '/' then Bad(value, v1, "/")
      else
        var v2 := v1[1..];
        if !TwoDigitsAt(v2, 0) then Bad(value, v2, "01")
        else
          var month := TwoDigitsValue(v2, 0);
          var v3 := v2[2..];
          if month < 1 || 12 < month then Failure(ParseError(MonthOutOfRange, value))
          else if |v3| == 0 || v3[0] != '/' then Bad(value, v3, "/")
          else
            var v4 := v3[1..];
            if !TwoDigitsAt(v4, 0) then Bad(value, v4, "02")
            else
              var day := TwoDigitsValue(v4, 0);
              var v5 := v4[2..];
              if |v5| > 0 then
                assert value[10..] == v5;
                Failure(ParseError(ExtraText(v5), value))
              else if day < 1 || day > DaysIn(month, year) then Failure(ParseError(DayOutOfRange, value))
              else
                var d := Date(year, month, day);
                FormatOfFields(value, d);
                Success(d)
  }

  /** Values below 10000 take the four-digit fast path. */
  lemma AppendInt4(u: int)
    requires 0 <= u < 10000
    ensures AppendInt(u, 4)
         == [DigitChar(u / 1000), DigitChar(u / 100 % 10), DigitChar(u / 10 % 10), DigitChar(u % 10)]
  {
  }

  /** Values below 100 take the two-digit fast path. */
  lemma AppendInt2(u: int)
    requires 0 <= u < 100
    ensures AppendInt(u, 2) == [DigitChar(u / 10), DigitChar(u % 10)]
  {
  }

  /** The value of four digits, spelled out. */
  lemma FourDigitsValue(s: string)
    requires |s| == 4 && AllDigits(s)
    ensures DigitsValue(s)
         == 1000 * DigitValue(s[0]) + 100 * DigitValue(s[1]) + 10 * DigitValue(s[2]) + DigitValue(s[3])
  {
    assert s[..1][..0] == [] && s[..2][..1] == s[..1] && s[..3][..2] == s[..2] && s[..4] == s;
    assert DigitsValue(s[..1]) == DigitValue(s[0]);
    assert DigitsValue(s[..2]) == 10 * DigitValue(s[0]) + DigitValue(s[1]);
    assert DigitsValue(s[..3]) == 100 * DigitValue(s[0]) + 10 * DigitValue(s[1]) + DigitValue(s[2]);
  }

  /** Four digits render back to themselves. */
  lemma FourDigits(s: string)
    requires |s| == 4 && AllDigits(s)
    ensures DigitsValue(s) < 10000
    ensures AppendInt(DigitsValue(s), 4) == s
  {
    var a, b, c, d := DigitValue(s[0]), DigitValue(s[1]), DigitValue(s[2]), DigitValue(s[3]);
    FourDigitsValue(s);
    var u := DigitsValue(s);
    SplitFourDigits(u, a, b, c, d);
    AppendInt4(u);
    assert DigitChar(a) == s[0] && DigitChar(b) == s[1] && DigitChar(c) == s[2] && DigitChar(d) == s[3];
  }

  /** The digits of a four-digit value, read back by division. */
  lemma SplitFourDigits(u: int, a: nat, b: nat, c: nat, d: nat)
    requires a < 10 && b < 10 && c < 10 && d < 10
    requires u == 1000 * a + 100 * b + 10 * c + d
    ensures 0 <= u < 10000
    ensures u / 1000 == a && u / 100 % 10 == b && u / 10 % 10 == c && u % 10 == d
  {
    DivMod1000(u, a, 100 * b + 10 * c + d);
    DivMod100(u, 10 * a + b, 10 * c + d);
    DivMod10(10 * a + b, a, b);
    DivMod10(u, 100 * a + 10 * b + c, d);
    DivMod10(100 * a + 10 * b + c, 10 * a + b, c);
  }

  lemma DivMod10(u: int, q: int, r: int)
    requires 0 <= r < 10 && u == 10 * q + r
    ensures u / 10 == q && u % 10 == r
  {
  }

  lemma DivMod100(u: int, q: int, r: int)
    requires 0 <= r < 100 && u == 100 * q + r
    ensures u / 100 == q
  {
  }

  lemma DivMod1000(u: int, q: int, r: int)
    requires 0 <= r < 1000 && u == 1000 * q + r
    ensures u / 1000 == q
  {
  }

  /** Two digits render back to themselves. */
  lemma TwoDigits(s: string, i: nat)
    requires TwoDigitsAt(s, i)
    ensures 0 <= TwoDigitsValue(s, i) < 100
    ensures AppendInt(TwoDigitsValue(s, i), 2) == s[i..i + 2]
  {
    var u := TwoDigitsValue(s, i);
    DivMod10(u, DigitValue(s[i]), DigitValue(s[i + 1]));
    AppendInt2(u);
  }

  /** The fields a successful parse reads render back to the parsed text. */
  lemma FormatOfFields(value: string, d: Date)
    requires |value| == 10 && AllDigits(value[..4]) && value[4] == '/' && value[7] == '/'
    requires TwoDigitsAt(value, 5) && TwoDigitsAt(value, 8)
    requires d == Date(DigitsValue(value[..4]), TwoDigitsValue(value, 5), TwoDigitsValue(value, 8))
    ensures FormatDate(d) == value
    ensures 0 <= d.year <= 9999
  {
    FourDigits(value[..4]);
    TwoDigits(value, 5);
    TwoDigits(value, 8);
    assert value == value[..4] + "/" + value[5..7] + "/" + value[8..10];
  }

  lemma DigitRoundTrip(n: nat)
    requires n < 10
    ensures IsDigit(DigitChar(n)) && DigitValue(DigitChar(n)) == n
  {
  }

  lemma Recompose4(y: int)
    requires 0 <= y < 10000
    ensures 1000 * (y / 1000) + 100 * (y / 100 % 10) + 10 * (y / 10 % 10) + y % 10 == y
  {
    var a, r := y / 1000, y % 1000;
    var b, r2 := r / 100, r % 100;
    var c, d := r2 / 10, r2 % 10;
    SplitFourDigits(y, a, b, c, d);
  }

  /** Parsing a formatted date gives the date back. */
  lemma ParseFormat(d: Date)
    requires LayoutDate(d)
    ensures ParseDate(FormatDate(d)) == Success(d)
  {
    var s := FormatDate(d);
    var y, m, dd := d.year, d.month, d.day;
    AppendInt4(y);
    AppendInt2(m);
    AppendInt2(dd);
    DigitRoundTrip(y / 1000);
    DigitRoundTrip(y / 100 % 10);
    DigitRoundTrip(y / 10 % 10);
    DigitRoundTrip(y % 10);
    DigitRoundTrip(m / 10);
    DigitRoundTrip(m % 10);
    DigitRoundTrip(dd / 10);
    DigitRoundTrip(dd % 10);
    assert |s| == 10 && s[4] == '/' && s[7] == '/';
    assert s[..4] == AppendInt(y, 4);
    assert AllDigits(s[..4]);
    FourDigitsValue(s[..4]);
    Recompose4(y);
    assert DigitsValue(s[..4]) == y;
    assert s[4..][1..] == s[5..] && s[5..][2..] == s[7..] && s[7..][1..] == s[8..] && s[8..][2..] == [];
    assert TwoDigitsAt(s[5..], 0) && TwoDigitsValue(s[5..], 0) == m;
    assert TwoDigitsAt(s[8..], 0) && TwoDigitsValue(s[8..], 0) == dd;
  }

  /** A formatted date followed by more text parses up to the date and then
      reports the rest as extra text. */
  lemma ParseFormatThenExtra(d: Date, rest: string)
    requires LayoutDate(d) && |rest| > 0
    ensures ParseDate(FormatDate(d) + rest) == Failure(ParseError(ExtraText(rest), FormatDate(d) + rest))
  {
    var f := FormatDate(d);
    var s := f + rest;
    FormatDateShape(d);
    ParseFormat(d);
    assert |f| == 10;
    assert s[..4] == f[..4];
    assert s[4..][1..] == s[5..] && s[5..][2..] == s[7..] && s[7..][1..] == s[8..] && s[8..][2..] == rest;
    assert f[4..][1..] == f[5..] && f[5..][2..] == f[7..] && f[7..][1..] == f[8..];
    assert s[4] == f[4] && s[7] == f[7];
    assert s[5..][..2] == f[5..][..2] && s[8..][..2] == f[8..][..2];
  }

  /** A formatted date holds only digits and slashes. */
  lemma FormatDateChars(d: Date)
    requires LayoutDate(d)
    ensures forall i :: 0 <= i < |FormatDate(d)| ==> FormatDate(d)[i] == '/' || IsDigit(FormatDate(d)[i])
  {
    FormatDateShape(d);
    var f := FormatDate(d);
    assert |f| == 10;
    forall i | 0 <= i < 10
      ensures f[i] == '/' || IsDigit(f[i])
    {
      if i < 4 {
        assert f[i] == AppendInt(d.year, 4)[i];
      } else if 4 < i < 7 {
        assert f[i] == AppendInt(d.month, 2)[i - 5];
      } else if 7 < i {
        assert f[i] == AppendInt(d.day, 2)[i - 8];
      }
    }
  }

  /** The text matches the layout's shape (digits and slashes) in its first
      `k` positions. */
  predicate ShapeUpTo(s: string, k: nat)
    requires k <= 10
  {
    k <= |s| && forall i :: 0 <= i < k ==> if i == 4 || i == 7 then s[i] == '/' else IsDigit(s[i])
  }

  /** The month field of a text shaped like the layout up to the month. */
  function MonthField(s: string): int
    requires ShapeUpTo(s, 7)
  {
    TwoDigitsValue(s, 5)
  }

  /** Which error time.Parse reports, by position of the first problem:
      a shape mismatch before the month is read, or after a month in range,
      is "cannot parse"; a month outside 1..12 is reported before anything
      after it is looked at; text after the day is reported before the day
      is checked against the month's length. */
  lemma ParseErrorKinds(s: string)
    ensures ParseDate(s).Failure? && ParseDate(s).error.kind.CannotParse?
        <==> !ShapeUpTo(s, 7) || (1 <= MonthField(s) <= 12 && !ShapeUpTo(s, 10))
    ensures ParseDate(s).Failure? && ParseDate(s).error.kind == MonthOutOfRange
        <==> ShapeUpTo(s, 7) && !(1 <= MonthField(s) <= 12)
    ensures ParseDate(s).Failure? && ParseDate(s).error.kind.ExtraText?
        <==> ShapeUpTo(s, 10) && 1 <= MonthField(s) <= 12 && |s| > 10
    ensures ParseDate(s).Failure? && ParseDate(s).error.kind == DayOutOfRange
        <==> ShapeUpTo(s, 10) && 1 <= MonthField(s) <= 12 && |s| == 10
             && !(1 <= TwoDigitsValue(s, 8) <= DaysIn(MonthField(s), DigitsValue(s[..4])))
  {
    ParseCannotParseKind(s);
    ParseMonthKind(s);
    ParseExtraKind(s);
    ParseDayKind(s);
  }

  lemma ParseCannotParseKind(s: string)
    ensures ParseDate(s).Failure? && ParseDate(s).error.kind.CannotParse?
        <==> !ShapeUpTo(s, 7) || (1 <= MonthField(s) <= 12 && !ShapeUpTo(s, 10))
  {
    ParseSlices(s);
    ShapeSeven(s);
    ShapeTen(s);
  }

  /** The layout's shape up to the month, checked field by field. */
  lemma ShapeSeven(s: string)
    ensures ShapeUpTo(s, 7) <==> |s| >= 5 && AllDigits(s[..4]) && s[4] == '/' && TwoDigitsAt(s, 5)
  {
    if |s| >= 7 && AllDigits(s[..4]) && s[4] == '/' && TwoDigitsAt(s, 5) {
      forall i | 0 <= i < 7
        ensures if i == 4 || i == 7 then s[i] == '/' else IsDigit(s[i])
      {
        if i < 4 {
          assert s[i] == s[..4][i];
        }
      }
    }
    if ShapeUpTo(s, 7) {
      forall i | 0 <= i < 4
        ensures IsDigit(s[..4][i])
      {
        assert s[..4][i] == s[i];
      }
    }
  }

  /** The layout's shape up to the day, checked as the month's shape and
      then field by field. */
  lemma ShapeTen(s: string)
    ensures ShapeUpTo(s, 10) <==> ShapeUpTo(s, 7) && |s| >= 8 && s[7] == '/' && TwoDigitsAt(s, 8)
  {
  }

  lemma ParseMonthKind(s: string)
    ensures ParseDate(s).Failure? && ParseDate(s).error.kind == MonthOutOfRange
        <==> ShapeUpTo(s, 7) && !(1 <= MonthField(s) <= 12)
  {
    ParseSlices(s);
  }

  lemma ParseExtraKind(s: string)
    ensures ParseDate(s).Failure? && ParseDate(s).error.kind.ExtraText?
        <==> ShapeUpTo(s, 10) && 1 <= MonthField(s) <= 12 && |s| > 10
  {
    ParseSlices(s);
  }

  lemma ParseDayKind(s: string)
    ensures ParseDate(s).Failure? && ParseDate(s).error.kind == DayOutOfRange
        <==> ShapeUpTo(s, 10) && 1 <= MonthField(s) <= 12 && |s| == 10
             && !(1 <= TwoDigitsValue(s, 8) <= DaysIn(MonthField(s), DigitsValue(s[..4])))
  {
    ParseSlices(s);
  }

  /** The slices ParseDate takes of `s`, in terms of `s` itself. */
  lemma ParseSlices(s: string)
    ensures |s| >= 4 ==> (AllDigits(s[..4]) <==> forall i :: 0 <= i < 4 ==> IsDigit(s[i]))
    ensures |s| >= 5 ==> s[4..][0] == s[4]
    ensures |s| >= 7 ==> s[4..][1..] == s[5..] && (TwoDigitsAt(s[5..], 0) <==> TwoDigitsAt(s, 5))
    ensures |s| >= 7 && TwoDigitsAt(s, 5) ==> TwoDigitsValue(s[5..], 0) == TwoDigitsValue(s, 5)
    ensures |s| >= 8 ==> s[5..][2..] == s[7..]
    ensures |s| >= 10 ==> s[7..][1..] == s[8..] && (TwoDigitsAt(s[8..], 0) <==> TwoDigitsAt(s, 8))
    ensures |s| >= 10 && TwoDigitsAt(s, 8) ==> TwoDigitsValue(s[8..], 0) == TwoDigitsValue(s, 8)
    ensures |s| >= 10 ==> s[8..][2..] == s[10..]
  {
  }


  const CannotParseText: string := "cannot parse"

  /** A layout mismatch always reads "cannot parse". */
  lemma MismatchTextSaysCannotParse(e: ParseError)
    requires e.kind.CannotParse?
    ensures Contains(ErrorText(e), CannotParseText)
  {
    var pre := "parsing time " + Quote(e.value) + " as " + Quote(DateLayout) + ": ";
    var post := " " + Quote(e.kind.valueElem) + " as " + Quote(e.kind.layoutElem);
    assert ErrorText(e) == pre + CannotParseText + post;
    assert OccursAt(CannotParseText, CannotParseText, 0);
    OccursInMiddle(pre, CannotParseText, post, CannotParseText, 0);
  }

  /** The errors reported after an element was read say "cannot parse" only
      when the parsed text itself contains those words. */
  lemma OtherTextQuotesValue(e: ParseError)
    requires !e.kind.CannotParse?
    requires e.kind.ExtraText? ==> HasSuffix(e.value, e.kind.rest)
    ensures Contains(ErrorText(e), CannotParseText) <==> Contains(e.value, CannotParseText)
  {
    var t := CannotParseText;
    var a := "parsing time ";
    NoOccurrenceWithoutHead(a, t);
    match e.kind {
      case MonthOutOfRange =>
        var c := ": month out of range";
        assert ErrorText(e) == a + ['"'] + e.value + ['"'] + c;
        NoOccurrenceWithoutHead(c, t);
        QuotedContains(a, e.value, c, t);
      case DayOutOfRange =>
        var c := ": day out of range";
        assert ErrorText(e) == a + ['"'] + e.value + ['"'] + c;
        NoOccurrenceWithoutHead(c, t);
        QuotedContains(a, e.value, c, t);
      case ExtraText(rest) =>
        ExtraTextQuotesValue(e.value, rest);
    }
  }

  lemma ExtraTextQuotesValue(value: string, rest: string)
    requires HasSuffix(value, rest)
    ensures Contains(ErrorText(ParseError(ExtraText(rest), value)), CannotParseText)
        <==> Contains(value, CannotParseText)
  {
    var t := CannotParseText;
    var a := "parsing time ";
    var c1 := ": extra text: ";
    var c := c1 + ['"'] + rest + ['"'] + "";
    assert ErrorText(ParseError(ExtraText(rest), value)) == a + ['"'] + value + ['"'] + c;
    NoOccurrenceWithoutHead(a, t);
    NoOccurrenceWithoutHead(c1, t);
    NoOccurrenceWithoutHead("", t);
    QuotedContains(a, value, c, t);
    QuotedContains(c1, rest, "", t);
    if Contains(rest, t) {
      SuffixContains(value, rest, t);
    }
  }

  /** A date the layout can express is spelled as four digits, a slash, two
      digits, a slash and two digits. */
  lemma FormatDateShape(d: Date)
    requires LayoutDate(d)
    ensures var y, m, dd := AppendInt(d.year, 4), AppendInt(d.month, 2), AppendInt(d.day, 2);
      && FormatDate(d) == y + "/" + m + "/" + dd
      && |y| == 4 && AllDigits(y) && |m| == 2 && AllDigits(m) && |dd| == 2 && AllDigits(dd)
  {
    AppendInt4(d.year);
    AppendInt2(d.month);
    AppendInt2(d.day);
    DigitRoundTrip(d.year / 1000);
    DigitRoundTrip(d.year / 100 % 10);
    DigitRoundTrip(d.year / 10 % 10);
    DigitRoundTrip(d.year % 10);
    DigitRoundTrip(d.month / 10);
    DigitRoundTrip(d.month % 10);
    DigitRoundTrip(d.day / 10);
    DigitRoundTrip(d.day % 10);
  }
}

=== FILE: wrappers.dfy ===
/** Failure-compatible result type used for the Go functions that return
    a value together with an `error`. */
module Wrappers {

  /** A value, or the error the Go function would have returned instead. */
  datatype Result<+T, +E> = Success(value: T) | Failure(error: E) {

    predicate IsFailure() {
      Failure?
    }

    function PropagateFailure<U>(): Result<U, E>
      requires Failure?
    {
      Failure(error)
    }

    function Extract(): T
      requires Success?
    {
      value
    }
  }
}
